=== FILE: README.md ===
# Uploader: the batch upload and delete routes, in Dafny

This project models the two route handlers of the Uploader service and the
object-store service they call.

- `POST /upload` receives the files that multer has staged under `uploads/`.
  - It answers 400 when there are no files.
  - When any file is not an image, it unlinks the staged copies of the invalid files and answers 400.
  - Otherwise it splices the batch into chunks of three. It uploads each file of a chunk concurrently. Every task records one success or one failure and unlinks its staged copy in a `finally` block. The next chunk starts only after the whole chunk has settled.
  - At the end it answers 200 when nothing failed and 207 when something did.
  - A catastrophic error answers 500 after a cleanup pass that unlinks every staged file.
- `DELETE /delete?key=` resolves either a bare key or a full object URL to a storage key.
  - It calls `deleteFile`, which percent-decodes and trims the key and accepts only a 204 reply.
  - The route maps the outcome to 200, 404 (an error named `NoSuchKey`) or 500.
- `uploadFile` builds the storage key `${now}-${random}-${originalname}`, the `PutObject` parameters and the public URL.

The model is organised in these files:

- `wrappers.dfy`: `Option` and `Result`.
- `js.dfy`: the JavaScript string and number operations the code relies on, with their ECMAScript meaning.
  - `startsWith`, `includes`, `indexOf`, `split`, `trim`, and `toString` on integers.
- `staging.dfy`: multer's staged file record and its naming rule.
  - The `uploads/` directory is a class, `StagingArea`, whose `Unlink` method is `fs.unlinkSync`.
- `s3_service.dfy`: `uploadFile` and `deleteFile`, as pure functions.
  - The store's replies and the URI codec are parameters.
- `upload_route.dfy`: `POST /upload`, as imperative methods over a `StagingArea`.
  - The methods are proved against ledger functions: `Records`, `Successes`, `Failures`.
  - Lemmas about those functions carry the route's promises.
- `delete_route.dfy`: `DELETE /delete` and the upload-then-delete round trip.

How the uploads of one chunk interleave is left open. `SettleRemaining` picks the next task to settle nondeterministically. A ghost sequence `order` records the order in which positions settled. Every statement about the result lists holds for every such order, and `Settled` states that the order goes chunk by chunk.

In four places the code behaves differently from what one might expect of such a service. The model follows the code:

- A key that contains `amazonaws.com/` resolves to `key.split("amazonaws.com/")[1]`.
  - One might expect the key to be everything after the first marker.
  - It is the text between the first and the second occurrence of the marker, or up to the end when there is no second occurrence.
  - See `DeleteRoute.ResolvedKeyIsSecondSegment`.
- A batch in which every upload failed is answered 207, as one in which only some failed is.
  - One might expect 207 to mean a mix of successes and failures.
  - Status 200 means exactly that nothing failed, and 207 that something did.
  - See `UploadRoute.BatchSummary`.
- A single non-image file makes the route reject the whole batch with 400.
  - One might expect only a batch without any valid file to be rejected, or the invalid files to be skipped.
  - See `UploadRoute.HandleUpload`.
- An upload keeps white space at the end of the original name in the storage key (`src/services/s3Service.js` lines 6-8), but a delete trims the key it is given (line 52).
  - One might expect that the URL an upload returns can always be used to delete the object.
  - For a name ending in white space, the delete addresses another key and never reaches the stored object.
  - See `DeleteRoute.DeleteMissesPaddedKey`.

## Model

| member | source | states |
|---|---|---|
| Js.IndexOf | src/routes/uploadRoutes.js:143-144 | `indexOf` finds a position exactly when the pattern occurs, and that position is the first occurrence |
| Js.FirstOccurrence | src/routes/uploadRoutes.js:143-144 | an occurrence with none before it is the one `indexOf` returns |
| Js.SplitJoin | src/routes/uploadRoutes.js:144 | joining the pieces of `split(sep)` with `sep` gives back the string |
| Js.SplitPiecesFree | src/routes/uploadRoutes.js:144 | no piece of `split(sep)` contains the separator |
| Js.SplitCases | src/routes/uploadRoutes.js:143-144 | without the separator a string splits into itself alone; with it, into at least two pieces, so `[1]` exists |
| Js.TrimStart | src/services/s3Service.js:52 | the result is a suffix of the input; everything dropped is white space; the result does not start with white space |
| Js.TrimEnd | src/services/s3Service.js:52 | the result is a prefix of the input; everything dropped is white space; the result does not end with white space |
| Js.TrimShape | src/services/s3Service.js:52 | `trim` keeps one contiguous slice of its input, and every character it cuts off on either side is white space |
| Js.TrimEdges | src/services/s3Service.js:52 | what `trim` keeps neither starts nor ends with white space |
| Js.TrimUnchanged | src/services/s3Service.js:52 | a string without surrounding white space is its own trim |
| Js.TrimIdempotent | src/services/s3Service.js:52 | trimming twice is trimming once |
| Js.TrimChangesPadded | src/services/s3Service.js:52 | a string ending in white space is changed by `trim` |
| Js.Decimal | src/services/s3Service.js:6-8 | `toString` of a non-negative integer is a non-empty digit string with no leading zero |
| Js.DecimalRoundTrip | src/services/s3Service.js:23 | reading the decimal rendering back gives the number (the `file-size` metadata denotes the size) |
| Js.DecimalInjective | src/services/s3Service.js:6-8 | different numbers render differently |
| Staging.StampedName | src/routes/uploadRoutes.js:17-20 | the `${now}-${random}-${originalname}` name ends with the original name and is longer than it |
| Staging.StampedNameParses | src/routes/uploadRoutes.js:17-20 | a stamped name reads back into exactly its timestamp, random number and original name |
| Staging.StampedNameInjective | src/routes/uploadRoutes.js:17-20 | two stamped names are equal only when timestamp, random number and name all are |
| Staging.StagingArea.constructor | src/routes/uploadRoutes.js:9-16 | the staging directory starts with the given staged paths and no unlink calls |
| Staging.StagingArea.Unlink | src/routes/uploadRoutes.js:51 | `fs.unlinkSync` succeeds exactly when the path is present and removable; it removes just that path, and every call is logged |
| S3Service.StorageKey | src/services/s3Service.js:6-8 | the storage key ends with the original name and reads back into the stamp and the name |
| S3Service.ObjectUrl | src/services/s3Service.js:31 | the URL starts with `https://<bucket>.s3.<region>.`, ends with `amazonaws.com/<key>`, and has nothing between the two |
| S3Service.PutParams | src/services/s3Service.js:13-25 | bucket, key, body, content type, `inline` disposition, one-year cache control; the three metadata entries, with `file-size` denoting the size |
| S3Service.UploadFile | src/services/s3Service.js:5-48 | a name that fails to encode fails with `URIError`; otherwise success exactly when the store answers; a store error is passed on unchanged; a success reports the stamped key, its public URL, the MIME type, the size and the name |
| S3Service.DeleteFile | src/services/s3Service.js:50-73 | an undecodable key fails with `URIError`; success exactly when the store answers 204 for the decoded, trimmed key, which is then reported; a thrown error is passed on; any other status fails with the status in the message |
| S3Service.DeletedKeyTrimmed | src/services/s3Service.js:52-64 | the key a successful delete reports has no surrounding white space |
| DeleteRoute.ResolveDeleteKey | src/routes/uploadRoutes.js:142-145 | a key without the marker is used verbatim; the resolved key is never longer than the query |
| DeleteRoute.ResolvedKeyIsSecondSegment | src/routes/uploadRoutes.js:143-144 | with the marker, the resolved key is the text after its first occurrence, up to the next occurrence or the end |
| DeleteRoute.ResolveAcrossMarker | src/routes/uploadRoutes.js:143-144 | a marker-free prefix, the marker, then a marker-free key resolves to that key |
| DeleteRoute.NoMarkerInHost | src/services/s3Service.js:31 | with a marker-free bucket and region, no marker starts inside the host part of an object URL |
| DeleteRoute.ObjectUrlResolves | src/routes/uploadRoutes.js:142-145 | an object URL resolves back to its key when bucket, region and key are marker-free |
| DeleteRoute.StorageKeyMarkerFree | src/services/s3Service.js:6-8 | a storage key contains the marker only if the original name does |
| DeleteRoute.UploadedUrlResolves | src/routes/uploadRoutes.js:142-145 | the `fileUrl` a successful upload returns resolves to the `fileName` it returns |
| DeleteRoute.HandleDelete | src/routes/uploadRoutes.js:133-161 | 400 exactly for a missing or empty key; otherwise 200 exactly when `deleteFile` succeeds (reporting its key), 404 exactly for a `NoSuchKey` error, 500 for every other error, with the error's message |
| DeleteRoute.DeleteAfterUpload | src/routes/uploadRoutes.js:133-161 | deleting by the URL of an upload sends `DeleteObject` for exactly the stored key and answers 200 exactly when the store answers 204 (marker-free bucket, region and name; a name not ending in white space; a decoder that leaves the key unchanged) |
| DeleteRoute.StoredObjectUrl | src/routes/uploadRoutes.js:142-145 | the object URL of a storage key is non-empty and resolves to the key, which has no surrounding white space |
| DeleteRoute.DeleteResolvedKey | src/routes/uploadRoutes.js:147-150 | a query resolving to a key that decoding and trimming leave alone deletes exactly that key; 200 exactly on a 204 |
| DeleteRoute.StorageKeyEdges | src/services/s3Service.js:6-8 | a storage key starts with a digit and ends like the name, so it has no surrounding white space when the name does not end in any |
| DeleteRoute.DeleteMissesPaddedKey | src/services/s3Service.js:52 | when the original name ends in white space, the delete request for the upload's URL targets the trimmed key, which differs from the stored key |
| DeleteRoute.PaddedKeyTrimmed | src/services/s3Service.js:52 | the storage key of a name ending in white space is changed by `trim` |
| UploadRoute.FileFilter | src/routes/uploadRoutes.js:23-30 | accepts exactly the files whose MIME type starts with `image/`; rejects the others with "Only image files are allowed!" |
| UploadRoute.StagedPath | src/routes/uploadRoutes.js:15-19 | the staged path is `uploads/` plus a stamped name that reads back into the stamp and the original name |
| UploadRoute.InvalidFiles | src/routes/uploadRoutes.js:47 | a file is listed exactly when it is in the batch and not an image; order and duplicates are pinned down by `InvalidFilesAppend` and `InvalidFilesSingle` |
| UploadRoute.InvalidFilesAppend | src/routes/uploadRoutes.js:47 | filtering a concatenation is the concatenation of the filtered parts, so the filter keeps input order |
| UploadRoute.InvalidFilesSingle | src/routes/uploadRoutes.js:47 | a one-file batch keeps its file exactly when it is not an image |
| UploadRoute.InvalidFilesAt | src/routes/uploadRoutes.js:47 | the invalid files before position `k`, then the file at `k` if it is not an image, then those after `k`: input order with duplicates kept |
| UploadRoute.Names | src/routes/uploadRoutes.js:55 | the original names of the files, position by position |
| UploadRoute.FilteredBatchValid | src/routes/uploadRoutes.js:46-48 | a batch that passed multer's filter has no invalid file, so the route's own type check never fires |
| UploadRoute.PathsOfStaged | src/routes/uploadRoutes.js:50-52 | the unlink calls of a `forEach` cleanup name exactly the staged paths of the files |
| UploadRoute.PathsInNext | src/routes/uploadRoutes.js:86-95 | one more task settling adds exactly its own `finally` unlink call, none for a file without a path |
| UploadRoute.PathsInReorder | src/routes/uploadRoutes.js:71-95 | tasks settling in another order make the same unlink calls in another order |
| UploadRoute.SettledUnlinks | src/routes/uploadRoutes.js:69-95 | whatever order the tasks of the first `n` files settle in, their unlink calls are those of a `forEach` over those files, each path once per file naming it |
| UploadRoute.ChunksFlatten | src/routes/uploadRoutes.js:66-70 | the chunks, concatenated in order, give back the batch |
| UploadRoute.ChunksShape | src/routes/uploadRoutes.js:66-70 | there are ceil(n/3) chunks, each non-empty and at most three long, all but the last exactly three long |
| UploadRoute.ChunkAt | src/routes/uploadRoutes.js:69-70 | chunk `c` holds exactly positions `3c` up to `3c + 3` or the end |
| UploadRoute.ChunkNext | src/routes/uploadRoutes.js:69-70 | after a multiple of three elements has been spliced off, the next splice is the next chunk |
| UploadRoute.ChunksExhausted | src/routes/uploadRoutes.js:69 | the loop empties the working copy after exactly as many splices as there are chunks |
| UploadRoute.SettleStep | src/routes/uploadRoutes.js:98 | a task settling in a chunk no earlier than all settled ones keeps the settle order duplicate-free and chunk by chunk |
| UploadRoute.RecordOf | src/routes/uploadRoutes.js:73-85 | a success record (name, URL, key, size, MIME type) exactly when the upload succeeded, otherwise a failure record with the error's message |
| UploadRoute.RecordsOutcome | src/routes/uploadRoutes.js:72-85 | a position's record is a success exactly when that file's `uploadFile` succeeded |
| UploadRoute.SuccessPositions | src/routes/uploadRoutes.js:74-80 | the settled positions whose records are successes |
| UploadRoute.FailurePositions | src/routes/uploadRoutes.js:82-85 | the settled positions whose records are failures |
| UploadRoute.SuccessesMatch | src/routes/uploadRoutes.js:74-80 | the `p`-th entry of `successful` is the record of the `p`-th successful position to settle |
| UploadRoute.FailuresMatch | src/routes/uploadRoutes.js:82-85 | the `p`-th entry of `failed` is the record of the `p`-th failed position to settle |
| UploadRoute.LedgerCounts | src/routes/uploadRoutes.js:71-96 | every settled position pushes exactly one record |
| UploadRoute.SettledCovers | src/routes/uploadRoutes.js:69-98 | when every position has settled once, the settle order is as long as the batch |
| UploadRoute.NoFailures | src/routes/uploadRoutes.js:109-113 | `failed` is empty exactly when no settled position failed |
| UploadRoute.LedgerComplete | src/routes/uploadRoutes.js:101-113 | after the batch the two lists add up to the batch size, a position is listed as success or failure exactly by its outcome, and nothing failed exactly when every upload succeeded |
| UploadRoute.SuccessesChunkOrdered | src/routes/uploadRoutes.js:69-98 | `successful` lists files chunk by chunk |
| UploadRoute.FailuresChunkOrdered | src/routes/uploadRoutes.js:69-98 | `failed` lists files chunk by chunk |
| UploadRoute.Summarize | src/routes/uploadRoutes.js:101-114 | 200 with "All uploads successful" exactly when nothing failed, 207 with "Some uploads failed" otherwise; counts and lists as collected; `failed` present exactly when non-empty |
| UploadRoute.RejectInvalid | src/routes/uploadRoutes.js:47-57 | unlinks the invalid files' staged copies in order and answers 400 with their names only when every unlink succeeded in its turn; otherwise stops unanswered at the first unlink that throws (a non-empty path that is stuck or already gone), having removed only the copies before it |
| UploadRoute.RejectionAnswersIff | src/routes/uploadRoutes.js:47-57 | the invalid-type branch answers 400 if and only if every unlink succeeds in its turn |
| UploadRoute.UnlinkInvalid | src/routes/uploadRoutes.js:50-52 | one unlink of the invalid-file cleanup succeeds exactly when the path is empty (skipped) or still present and not stuck; on success it extends the call log and the removals by one file, otherwise it ends the rejection |
| UploadRoute.CleanupAll | src/routes/uploadRoutes.js:118-124 | the catch block unlinks every staged path in order, swallowing failures; exactly the removable staged copies are gone |
| UploadRoute.UploadOne | src/routes/uploadRoutes.js:72-85 | the task's `try` and `catch` push exactly the record of that file's outcome onto the matching list |
| UploadRoute.ReleaseStaged | src/routes/uploadRoutes.js:86-95 | the task's `finally` unlinks the file's staged path, if any, swallowing a failure, and removes it when removable |
| UploadRoute.SettleRemaining | src/routes/uploadRoutes.js:71-98 | in whatever order a chunk's tasks settle, all settle once, the lists hold their records in that order, and the new unlink calls are their staged paths in that same order, one call per task with a path |
| UploadRoute.ProcessChunk | src/routes/uploadRoutes.js:69-98 | one loop turn splices off the next chunk of `Chunks`, settles all its tasks, appending one unlink call per task with a path in settle order, and leaves the rest of the batch as the working copy |
| UploadRoute.Reached | src/routes/uploadRoutes.js:69-70 | the positions handled before a catastrophe at a chunk boundary: all of them, or three per chunk dispatched |
| UploadRoute.DispatchChunks | src/routes/uploadRoutes.js:66-99 | the chunk loop settles every position, or those before the catastrophe, chunk by chunk, with `successful` and `failed` the records of the settle order; the new unlink calls are exactly their staged paths in settle order (`PathsIn`); without a catastrophe it runs once per chunk |
| UploadRoute.RunBatch | src/routes/uploadRoutes.js:64-130 | the summary of the settled batch with the unlink calls in settle order, or 500 with the error's message, the calls of the positions reached in settle order followed by the cleanup pass; in both cases every removable staged copy is gone |
| UploadRoute.BatchUnlinks | src/routes/uploadRoutes.js:64-130 | up to order, a processed batch unlinks each staged file once; after a catastrophe, each file reached once before the cleanup pass |
| UploadRoute.BatchSummary | src/routes/uploadRoutes.js:101-113 | the summary counts every file once; 200 exactly when every upload succeeded, 207 exactly when one failed |
| UploadRoute.HandleUpload | src/routes/uploadRoutes.js:41-131 | 400 "No files uploaded" for an absent or empty batch, without touching the staging area; the invalid-type rejection when a file is not an image; no upload task runs in either branch (`order`, the positions whose `uploadFile` ran, is empty); otherwise the batch processing of `RunBatch`, with its exact unlink calls |

## Left out

- Express routing, the multipart parsing, and the staging write are not modelled. The handler starts from multer's file records and from the staging directory as a set of paths.
- multer's `limits` are not enforced: at most 10 files, each at most 5 MiB. Within this model a batch of any length, with files of any size, reaches the handler.
- The `destination` callback's `mkdirSync` (lines 10-16 of `src/routes/uploadRoutes.js`) is not modelled. The staging directory is taken to exist.
- The clock, the random draw and `new Date().toISOString()` are inputs. They come in through a `Stamp` per position.
  - `UploadRoute.StagedPath` builds the staged name, but the model does not tie each file's `path` to the stamp it was staged with.
- The S3 client, its `send`, and `encodeURIComponent`/`decodeURIComponent` are functions supplied with the environment.
  - Each store command gets one deterministic answer, so two identical commands get the same answer.
  - The percent codec is abstract, so the round-trip lemmas assume that decoding leaves the storage key unchanged. For real keys this holds when the key contains no `%`.
- The file stream in `PutObject` is named only by the staged path it reads from. Reading the file is not modelled.
  - A staged file without a path makes `fs.createReadStream` throw (line 11 of `src/services/s3Service.js`) before any store call. In the model such a file still reaches the store, and its upload succeeds or fails by the store's answer alone.
- `console.error` logging is not modelled. Neither is the error text of a failing `unlinkSync`: a failure is an unlink that returns false.
- The concurrency of a chunk's tasks is modelled as tasks that each settle atomically, in an order the model leaves open.
  - A task's `try` and `finally` blocks run back to back, with no other task of the chunk in between.
  - The chunk barrier of `Promise.all` (line 98) is modelled exactly.
- Catastrophic errors: an error thrown inside the `try` block but outside every per-file task strikes only just before a chunk is dispatched, or after the last chunk.
  - Such an error is one of `[...req.files]`, `splice`, `Promise.all` itself, or building the response.
  - The partial effects of a chunk interrupted half-way are not modelled.
- A `key` query parameter given as an array, or as any other non-string, is not modelled. The query is an optional string.
- A store reply with no numeric status code is not modelled.
- The invalid-type cleanup (lines 50-52) calls `fs.unlinkSync` without a `try`. In the model a throwing unlink ends the handler with no response (`Unanswered`): the handler writes nothing, and what the framework then does with the rejected promise is outside the model.
- UploadRoute.PathsIn: its own contract states only a length bound. What it lists is stated by `UploadRoute.PathsInNext` and `UploadRoute.SettledUnlinks`.
- UploadRoute.PathsOf: its own contract states only a length bound. What it lists is stated by `UploadRoute.PathsOfStaged`.
- UploadRoute.Successes: its own contract states only a length bound. What it holds is stated by `UploadRoute.SuccessesMatch` and `UploadRoute.LedgerComplete`.
- UploadRoute.Failures: its own contract states only a length bound. What it holds is stated by `UploadRoute.FailuresMatch` and `UploadRoute.LedgerComplete`.
- Js.Split: its own contract states only that there is at least one piece. What the pieces are is stated by `Js.SplitJoin`, `Js.SplitPiecesFree` and `Js.SplitCases`.
- Js.Trim: defined as `TrimEnd(TrimStart(s))`, with no contract of its own. What it keeps and drops is stated by `Js.TrimShape`, `Js.TrimEdges`, `Js.TrimUnchanged` and `Js.TrimIdempotent`.
- Js.Contains: a predicate with no contract of its own. `Js.IndexOf` states that a first occurrence is found exactly when it holds, and `Js.SplitCases` what it means for `split`.
- Js.StartsWith: a predicate with no contract of its own. What it means for the route is stated by `UploadRoute.FileFilter`, `UploadRoute.StagedPath` and `S3Service.ObjectUrl`.
- UploadRoute.Chunks: its own contract states nothing. What the chunks are is stated by `UploadRoute.ChunksFlatten`, `UploadRoute.ChunksShape`, `UploadRoute.ChunkAt` and `UploadRoute.ChunkNext`.
- `src/config/s3Config.js` and `main.js` are not part of this model. The bucket and the region are fields of the store parameter.

=== FILE: delete_route.dfy ===
/** `DELETE /delete?key=...`: resolve the client's key (a bare storage key
    or a full object URL), delete it through the service, and map the
    outcome to an HTTP status. */
module DeleteRoute {
  import opened Wrappers
  import opened Js
  import opened Staging
  import opened S3Service

  /** The host marker that tells a full object URL from a bare key. */
  const UrlMarker: string := "amazonaws.com/"

  /** The key the route passes to `deleteFile`: the key itself, or, when it
      contains the marker, `key.split("amazonaws.com/")[1]`. */
  function ResolveDeleteKey(key: string): (r: string)
    ensures !Contains(key, UrlMarker) ==> r == key
    ensures |r| <= |key|
  {
    if Contains(key, UrlMarker) then
      SplitCases(key, UrlMarker);
      SplitJoin(key, UrlMarker);
      SplitJoinLength(Split(key, UrlMarker), UrlMarker);
      Split(key, UrlMarker)[1]
    else key
  }

  /** Every piece of a list is no longer than the pieces joined. */
  lemma {:induction false} SplitJoinLength(parts: seq<string>, sep: string)
    requires |parts| >= 2
    ensures |parts[1]| <= |Join(parts, sep)|
  {
    if |parts| > 2 {
      JoinFirstLength(parts[1..], sep);
    }
  }

  lemma {:induction false} JoinFirstLength(parts: seq<string>, sep: string)
    requires |parts| >= 1
    ensures |parts[0]| <= |Join(parts, sep)|
  {
  }

  /** For a key that contains the marker, the resolved key is the text that
      follows the first occurrence, up to the next occurrence or the end:
      the segment between the first and second markers, not everything
      after the first. */
  lemma ResolvedKeyIsSecondSegment(key: string)
    requires Contains(key, UrlMarker)
    ensures var i := IndexOf(key, UrlMarker).value;
      var rest := key[i + |UrlMarker|..];
      var r := ResolveDeleteKey(key);
      |r| <= |rest| && r == rest[..|r|]
      && (forall j :: 0 <= j < |r| ==> !OccursAt(rest, UrlMarker, j))
      && (|r| == |rest| || OccursAt(rest, UrlMarker, |r|))
  {
    var i := IndexOf(key, UrlMarker).value;
    var rest := key[i + |UrlMarker|..];
    assert Split(key, UrlMarker) == [key[..i]] + Split(rest, UrlMarker);
    match IndexOf(rest, UrlMarker)
    case None =>
      assert Split(rest, UrlMarker) == [rest];
    case Some(j) =>
      assert Split(rest, UrlMarker) == [rest[..j]] + Split(rest[j + |UrlMarker|..], UrlMarker);
  }

  /** A key made of the marker between two marker-free texts resolves to
      the second text. */
  lemma ResolveAcrossMarker(prefix: string, key: string)
    requires forall j :: 0 <= j < |prefix| ==> !OccursAt(prefix + UrlMarker + key, UrlMarker, j)
    requires !Contains(key, UrlMarker)
    ensures ResolveDeleteKey(prefix + UrlMarker + key) == key
  {
    var url := prefix + UrlMarker + key;
    assert url[|prefix|..|prefix| + |UrlMarker|] == UrlMarker;
    FirstOccurrence(url, UrlMarker, |prefix|);
    assert url[|prefix| + |UrlMarker|..] == key;
    SplitCases(key, UrlMarker);
    assert Split(url, UrlMarker) == [url[..|prefix|]] + [key];
  }

  /** A marker cannot begin inside a marker-free `x` and run on into a `y`
      that starts with a dot not followed by 'c'. */
  lemma NoStraddle(x: string, y: string, j: int)
    requires !Contains(x, UrlMarker)
    requires 0 <= j < |x|
    requires |y| >= 2 && y[0] == '.' && y[1] != 'c'
    ensures !OccursAt(x + y, UrlMarker, j)
  {
    var s := x + y;
    var k := |x| - j;
    if j + |UrlMarker| <= |x| {
      OccursAtPrefix(x, y, UrlMarker, j);
    } else if k == 9 {
      Mismatch(s, UrlMarker, j, 10);
    } else {
      assert UrlMarker[k] != '.';
      Mismatch(s, UrlMarker, j, k);
    }
  }

  /** No marker starts before the host part of an object URL when neither
      the bucket nor the region contains one. */
  lemma NoMarkerInHost(bucket: string, region: string, key: string)
    requires !Contains(bucket, UrlMarker) && !Contains(region, UrlMarker)
    ensures var prefix := "https://" + bucket + ".s3." + region + ".";
      forall j :: 0 <= j < |prefix| ==> !OccursAt(prefix + UrlMarker + key, UrlMarker, j)
  {
    var prefix := "https://" + bucket + ".s3." + region + ".";
    forall j | 0 <= j < |prefix| ensures !OccursAt(prefix + UrlMarker + key, UrlMarker, j) {
      NoMarkerInHostAt(bucket, region, key, j);
    }
  }

  /** `NoMarkerInHost` at one position. */
  lemma NoMarkerInHostAt(bucket: string, region: string, key: string, j: nat)
    requires !Contains(bucket, UrlMarker) && !Contains(region, UrlMarker)
    requires j < |"https://" + bucket + ".s3." + region + "."|
    ensures !OccursAt("https://" + bucket + ".s3." + region + "." + UrlMarker + key, UrlMarker, j)
  {
    if 8 <= j < 8 + |bucket| {
      NoMarkerInBucket(bucket, region, key, j - 8);
    } else if 12 + |bucket| <= j < 12 + |bucket| + |region| {
      NoMarkerInRegion(bucket, region, key, j - 12 - |bucket|);
    } else {
      NoMarkerInHostText(bucket, region, key, j);
    }
  }

  /** No marker starts inside the bucket name of an object URL. */
  lemma NoMarkerInBucket(bucket: string, region: string, key: string, j: nat)
    requires !Contains(bucket, UrlMarker) && j < |bucket|
    ensures !OccursAt("https://" + bucket + ".s3." + region + "." + UrlMarker + key, UrlMarker, 8 + j)
  {
    var y1 := ".s3." + region + "." + UrlMarker + key;
    assert "https://" + bucket + ".s3." + region + "." + UrlMarker + key == "https://" + (bucket + y1);
    OccursAtShift("https://", bucket + y1, UrlMarker, j);
    NoStraddle(bucket, y1, j);
  }

  /** No marker starts inside the region of an object URL. */
  lemma NoMarkerInRegion(bucket: string, region: string, key: string, j: nat)
    requires !Contains(region, UrlMarker) && j < |region|
    ensures !OccursAt("https://" + bucket + ".s3." + region + "." + UrlMarker + key, UrlMarker, 12 + |bucket| + j)
  {
    var x := "https://" + bucket + ".s3.";
    var y2 := "." + UrlMarker + key;
    assert "https://" + bucket + ".s3." + region + "." + UrlMarker + key == x + (region + y2);
    OccursAtShift(x, region + y2, UrlMarker, j);
    NoStraddle(region, y2, j);
  }

  /** No marker starts at the fixed text of an object URL's host, none of
      whose characters is an 'a'. */
  lemma NoMarkerInHostText(bucket: string, region: string, key: string, j: nat)
    requires j < 8 || 8 + |bucket| <= j < 12 + |bucket| || j == 12 + |bucket| + |region|
    ensures !OccursAt("https://" + bucket + ".s3." + region + "." + UrlMarker + key, UrlMarker, j)
  {
    var url := "https://" + bucket + ".s3." + region + "." + UrlMarker + key;
    assert url[j] != 'a';
    Mismatch(url, UrlMarker, j, 0);
  }

  /** The URL of an object resolves back to its key, provided the bucket,
      the region and the key are free of the marker. */
  lemma {:induction false} ObjectUrlResolves(bucket: string, region: string, key: string)
    requires !Contains(bucket, UrlMarker) && !Contains(region, UrlMarker) && !Contains(key, UrlMarker)
    ensures ResolveDeleteKey(ObjectUrl(bucket, region, key)) == key
  {
    var prefix := "https://" + bucket + ".s3." + region + ".";
    assert ObjectUrl(bucket, region, key) == prefix + UrlMarker + key;
    NoMarkerInHost(bucket, region, key);
    ResolveAcrossMarker(prefix, key);
  }

  /** A storage key holds the marker only if the original name does. */
  lemma StorageKeyMarkerFree(stamp: Stamp, name: string)
    requires !Contains(name, UrlMarker)
    ensures !Contains(StorageKey(stamp, name), UrlMarker)
  {
    var key := StorageKey(stamp, name);
    forall j | 0 <= j <= |key| ensures !OccursAt(key, UrlMarker, j) {
      StorageKeyNoMarkerAt(stamp, name, j);
    }
  }

  /** `StorageKeyMarkerFree` at one position. */
  lemma StorageKeyNoMarkerAt(stamp: Stamp, name: string, j: nat)
    requires !Contains(name, UrlMarker) && j <= |StorageKey(stamp, name)|
    ensures !OccursAt(StorageKey(stamp, name), UrlMarker, j)
  {
    var head := Decimal(stamp.now) + "-" + Decimal(stamp.random) + "-";
    var key := StorageKey(stamp, name);
    assert key == head + name;
    if j < |head| {
      assert key[j] == head[j];
      assert IsDigit(head[j]) || head[j] == '-';
      Mismatch(key, UrlMarker, j, 0);
    } else {
      OccursAtShift(head, name, UrlMarker, j - |head|);
    }
  }

  /** Upload then resolve: the `fileUrl` a successful upload returns
      resolves, under the delete route's rule, to the `fileName` it
      returns. */
  lemma {:induction false} UploadedUrlResolves(file: StagedFile, s3: S3, uri: UriCoding, stamp: Stamp)
    requires UploadFile(file, s3, uri, stamp).Success?
    requires !Contains(s3.bucket, UrlMarker) && !Contains(s3.region, UrlMarker)
    requires !Contains(file.originalName, UrlMarker)
    ensures var u := UploadFile(file, s3, uri, stamp).value;
      ResolveDeleteKey(u.fileUrl) == u.fileName
  {
    StorageKeyMarkerFree(stamp, file.originalName);
    ObjectUrlResolves(s3.bucket, s3.region, StorageKey(stamp, file.originalName));
  }

  /** The JSON response of the delete route. */
  datatype DeleteResponse = DeleteResponse(status: nat, message: string, key: Option<string>, error: Option<string>)

  /** The delete route: 400 for a missing or empty key, 200 when
      `deleteFile` succeeds, 404 when it throws an error named
      "NoSuchKey", and 500 for every other error. */
  function HandleDelete(query: Option<string>, s3: S3, uri: UriCoding): (resp: DeleteResponse)
    ensures resp.status == 400 <==> query.None? || query.value == ""
    ensures query.Some? && query.value != "" ==>
      var r := DeleteFile(ResolveDeleteKey(query.value), s3, uri);
      (resp.status == 200 <==> r.Success?)
      && (r.Success? ==> resp.key == Some(r.value.key))
      && (resp.status == 404 <==> r.Failure? && r.error.name == "NoSuchKey")
      && (resp.status == 500 <==> r.Failure? && r.error.name != "NoSuchKey")
      && (r.Failure? ==> resp.error == Some(r.error.message))
  {
    if query.None? || query.value == "" then
      DeleteResponse(400, "Missing 'key' query parameter", None, None)
    else
      match DeleteFile(ResolveDeleteKey(query.value), s3, uri)
      case Success(result) => DeleteResponse(200, "File deleted successfully", Some(result.key), None)
      case Failure(e) =>
        if e.name == "NoSuchKey" then DeleteResponse(404, "File not found", None, Some(e.message))
        else DeleteResponse(500, "Failed to delete file", None, Some(e.message))
  }

  /** A delete request carrying the URL of an upload sends `DeleteObject`
      for exactly the stored key, and reports 200 exactly when the store
      answers 204 — given marker-free bucket, region and name, a name that
      does not end in white space, and a decoder that leaves the key as it
      is (true of any key without '%'). */
  lemma {:induction false} DeleteAfterUpload(file: StagedFile, s3: S3, uri: UriCoding, stamp: Stamp)
    requires UploadFile(file, s3, uri, stamp).Success?
    requires !Contains(s3.bucket, UrlMarker) && !Contains(s3.region, UrlMarker)
    requires !Contains(file.originalName, UrlMarker)
    requires file.originalName == [] || !IsWhiteSpace(file.originalName[|file.originalName| - 1])
    requires var key := UploadFile(file, s3, uri, stamp).value.fileName; uri.decode(key) == Some(key)
    ensures var u := UploadFile(file, s3, uri, stamp).value;
      var resp := HandleDelete(Some(u.fileUrl), s3, uri);
      (resp.status == 200 <==> s3.deleteObject(DeleteObjectParams(s3.bucket, u.fileName)) == Responded(DeleteSucceeded))
      && (resp.status == 200 ==> resp.key == Some(u.fileName))
  {
    var u := UploadFile(file, s3, uri, stamp).value;
    assert u.fileName == StorageKey(stamp, file.originalName);
    assert u.fileUrl == ObjectUrl(s3.bucket, s3.region, u.fileName);
    StoredObjectUrl(s3, stamp, file.originalName);
    DeleteResolvedKey(u.fileUrl, u.fileName, s3, uri);
  }

  /** The object URL of a storage key resolves back to that key, which
      has no surrounding white space, under the same hypotheses as
      `DeleteAfterUpload`. */
  lemma StoredObjectUrl(s3: S3, stamp: Stamp, name: string)
    requires !Contains(s3.bucket, UrlMarker) && !Contains(s3.region, UrlMarker)
    requires !Contains(name, UrlMarker)
    requires name == [] || !IsWhiteSpace(name[|name| - 1])
    ensures ObjectUrl(s3.bucket, s3.region, StorageKey(stamp, name)) != ""
    ensures ResolveDeleteKey(ObjectUrl(s3.bucket, s3.region, StorageKey(stamp, name))) == StorageKey(stamp, name)
    ensures var key := StorageKey(stamp, name);
      |key| > 0 && !IsWhiteSpace(key[0]) && !IsWhiteSpace(key[|key| - 1])
  {
    var key := StorageKey(stamp, name);
    StorageKeyMarkerFree(stamp, name);
    ObjectUrlResolves(s3.bucket, s3.region, key);
    StorageKeyEdges(stamp, name);
  }

  /** A delete request whose key parameter resolves to a key that the
      decoder leaves as it is and that has no surrounding white space
      deletes exactly that key. */
  lemma DeleteResolvedKey(query: string, key: string, s3: S3, uri: UriCoding)
    requires query != "" && ResolveDeleteKey(query) == key
    requires uri.decode(key) == Some(key)
    requires key == [] || (!IsWhiteSpace(key[0]) && !IsWhiteSpace(key[|key| - 1]))
    ensures var resp := HandleDelete(Some(query), s3, uri);
      (resp.status == 200 <==> s3.deleteObject(DeleteObjectParams(s3.bucket, key)) == Responded(DeleteSucceeded))
      && (resp.status == 200 ==> resp.key == Some(key))
  {
    TrimUnchanged(key);
  }

  /** The converse case of `DeleteAfterUpload`: when the original name
      ends in white space, the stored key does too, so `deleteFile` trims
      it into a different key and the delete request never names the
      stored object; a 200 reply reports the trimmed key. */
  lemma {:induction false} DeleteMissesPaddedKey(file: StagedFile, s3: S3, uri: UriCoding, stamp: Stamp)
    requires UploadFile(file, s3, uri, stamp).Success?
    requires !Contains(s3.bucket, UrlMarker) && !Contains(s3.region, UrlMarker)
    requires !Contains(file.originalName, UrlMarker)
    requires file.originalName != [] && IsWhiteSpace(file.originalName[|file.originalName| - 1])
    requires var key := UploadFile(file, s3, uri, stamp).value.fileName; uri.decode(key) == Some(key)
    ensures var u := UploadFile(file, s3, uri, stamp).value;
      var resp := HandleDelete(Some(u.fileUrl), s3, uri);
      Trim(u.fileName) != u.fileName
      && (resp.status == 200 <==> s3.deleteObject(DeleteObjectParams(s3.bucket, Trim(u.fileName))) == Responded(DeleteSucceeded))
      && (resp.status == 200 ==> resp.key == Some(Trim(u.fileName)))
  {
    var u := UploadFile(file, s3, uri, stamp).value;
    UploadedUrlResolves(file, s3, uri, stamp);
    PaddedKeyTrimmed(stamp, file.originalName);
    assert u.fileUrl != "" by {
      assert StartsWith(u.fileUrl, "https://" + s3.bucket + ".s3." + s3.region + ".");
    }
  }

  /** A storage key whose original name ends in white space is changed by
      `trim`. */
  lemma PaddedKeyTrimmed(stamp: Stamp, name: string)
    requires name != [] && IsWhiteSpace(name[|name| - 1])
    ensures Trim(StorageKey(stamp, name)) != StorageKey(stamp, name)
  {
    var key := StorageKey(stamp, name);
    assert EndsWith(key, name);
    assert key[|key| - |name|..][|name| - 1] == name[|name| - 1];
    TrimChangesPadded(key);
  }

  /** A storage key neither starts nor ends with white space when the
      original name does not end in it. */
  lemma StorageKeyEdges(stamp: Stamp, name: string)
    requires name == [] || !IsWhiteSpace(name[|name| - 1])
    ensures var key := StorageKey(stamp, name);
      |key| > 0 && !IsWhiteSpace(key[0]) && !IsWhiteSpace(key[|key| - 1])
  {
    var key := StorageKey(stamp, name);
    assert key == Decimal(stamp.now) + "-" + Decimal(stamp.random) + "-" + name;
    assert IsDigit(key[0]);
    if name == [] {
      assert key[|key| - 1] == '-';
    } else {
      assert key[|key| - 1] == name[|name| - 1];
    }
  }
}

=== FILE: js.dfy ===
/** The parts of the JavaScript runtime the service relies on, with their
    ECMAScript semantics: `String.prototype.startsWith`, `includes`,
    `indexOf`, `split` with a string separator, `trim`, and
    `Number.prototype.toString()` on non-negative integers. */
module Js {
  import opened Wrappers

  // ---------------------------------------------------------------------
  // Substring search

  /** `pat` occurs in `s` starting at index `i`. */
  predicate OccursAt(s: string, pat: string, i: int)
  {
    0 <= i && i + |pat| <= |s| && s[i..i + |pat|] == pat
  }

  /** `s.includes(pat)`. */
  predicate Contains(s: string, pat: string)
  {
    exists i :: 0 <= i <= |s| && OccursAt(s, pat, i)
  }

  /** `s.startsWith(p)`. */
  predicate StartsWith(s: string, p: string)
  {
    |p| <= |s| && s[..|p|] == p
  }

  /** `s.endsWith(p)`. */
  predicate EndsWith(s: string, p: string)
  {
    |p| <= |s| && s[|s| - |p|..] == p
  }

  /** The first occurrence of `pat` in `s` at or after `from`. */
  function IndexFrom(s: string, pat: string, from: nat): (r: Option<nat>)
    requires from <= |s|
    ensures r.Some? ==> from <= r.value && OccursAt(s, pat, r.value)
    ensures r.Some? ==> forall j :: from <= j < r.value ==> !OccursAt(s, pat, j)
    ensures r.None? ==> forall j :: from <= j ==> !OccursAt(s, pat, j)
    decreases |s| - from
  {
    if from + |pat| > |s| then None
    else if s[from..from + |pat|] == pat then Some(from)
    else if from == |s| then None
    else IndexFrom(s, pat, from + 1)
  }

  /** `s.indexOf(pat)`, with `None` standing for `-1`. */
  function IndexOf(s: string, pat: string): (r: Option<nat>)
    ensures r.Some? <==> Contains(s, pat)
    ensures r.Some? ==> OccursAt(s, pat, r.value)
    ensures r.Some? ==> forall j :: 0 <= j < r.value ==> !OccursAt(s, pat, j)
  {
    var r := IndexFrom(s, pat, 0);
    assert r.Some? ==> r.value <= |s|;
    r
  }

  /** An occurrence with none before it is what `IndexOf` finds. */
  lemma FirstOccurrence(s: string, pat: string, i: nat)
    requires OccursAt(s, pat, i)
    requires forall j :: 0 <= j < i ==> !OccursAt(s, pat, j)
    ensures IndexOf(s, pat) == Some(i)
  {
    assert Contains(s, pat);
  }

  /** The first position holding a character is where `indexOf` finds it. */
  lemma FirstCharOccurrence(s: string, c: char, i: nat)
    requires i < |s| && s[i] == c
    requires forall j :: 0 <= j < i ==> s[j] != c
    ensures IndexOf(s, [c]) == Some(i)
  {
    assert s[i..i + 1] == [c];
    forall j | 0 <= j < i ensures !OccursAt(s, [c], j) {
      assert s[j] != c;
    }
    FirstOccurrence(s, [c], i);
  }

  /** One mismatching character rules out an occurrence. */
  lemma Mismatch(s: string, pat: string, j: int, t: int)
    requires 0 <= j && 0 <= t < |pat| && j + t < |s| && s[j + t] != pat[t]
    ensures !OccursAt(s, pat, j)
  {
    if j + |pat| <= |s| {
      assert s[j..j + |pat|][t] == s[j + t];
    }
  }

  /** Occurrences in the right operand of a concatenation shift by the left length. */
  lemma OccursAtShift(x: string, y: string, pat: string, j: int)
    requires 0 <= j
    ensures OccursAt(x + y, pat, |x| + j) <==> OccursAt(y, pat, j)
  {
    if 0 <= j && j + |pat| <= |y| {
      assert (x + y)[|x| + j..|x| + j + |pat|] == y[j..j + |pat|];
    }
  }

  /** Occurrences lying wholly in the left operand of a concatenation. */
  lemma OccursAtPrefix(x: string, y: string, pat: string, j: int)
    requires j + |pat| <= |x|
    ensures OccursAt(x + y, pat, j) <==> OccursAt(x, pat, j)
  {
    if 0 <= j {
      assert (x + y)[j..j + |pat|] == x[j..j + |pat|];
    }
  }

  // ---------------------------------------------------------------------
  // String.prototype.split with a non-empty string separator

  /** Joins `parts` with `sep` between consecutive parts (`Array.prototype.join`). */
  function Join(parts: seq<string>, sep: string): (r: string)
  {
    if parts == [] then ""
    else if |parts| == 1 then parts[0]
    else parts[0] + sep + Join(parts[1..], sep)
  }

  /** `s.split(sep)`: cut `s` at every occurrence of `sep`, searching left
      to right and resuming after each occurrence found. */
  function Split(s: string, sep: string): (parts: seq<string>)
    requires |sep| > 0
    ensures |parts| >= 1
    decreases |s|
  {
    match IndexOf(s, sep)
    case None => [s]
    case Some(i) => [s[..i]] + Split(s[i + |sep|..], sep)
  }

  /** Joining the pieces of a split with the same separator gives back the
      string. */
  lemma {:induction false} SplitJoin(s: string, sep: string)
    requires |sep| > 0
    ensures Join(Split(s, sep), sep) == s
    decreases |s|
  {
    match IndexOf(s, sep)
    case None =>
    case Some(i) =>
      var rest := s[i + |sep|..];
      var tail := Split(rest, sep);
      SplitJoin(rest, sep);
      var parts := [s[..i]] + tail;
      assert Split(s, sep) == parts;
      assert parts[1..] == tail;
      calc {
        Join(parts, sep);
        s[..i] + sep + Join(tail, sep);
        s[..i] + sep + rest;
        { assert s[i..i + |sep|] == sep; }
        s;
      }
  }

  /** No piece of a split contains the separator. */
  lemma {:induction false} SplitPiecesFree(s: string, sep: string)
    requires |sep| > 0
    ensures forall k :: 0 <= k < |Split(s, sep)| ==> !Contains(Split(s, sep)[k], sep)
    decreases |s|
  {
    match IndexOf(s, sep)
    case None =>
    case Some(i) =>
      var rest := s[i + |sep|..];
      var tail := Split(rest, sep);
      SplitPiecesFree(rest, sep);
      assert Split(s, sep) == [s[..i]] + tail;
      if Contains(s[..i], sep) {
        var j :| 0 <= j <= i && OccursAt(s[..i], sep, j);
        assert s[..i] + s[i..] == s;
        OccursAtPrefix(s[..i], s[i..], sep, j);
        assert false;
      }
  }

  /** A string without the separator splits into itself alone; one with it
      splits into the text before its first occurrence and the split of
      what follows that occurrence. */
  lemma SplitCases(s: string, sep: string)
    requires |sep| > 0
    ensures !Contains(s, sep) ==> Split(s, sep) == [s]
    ensures Contains(s, sep) ==> |Split(s, sep)| >= 2
  {
    if Contains(s, sep) {
      var i := IndexOf(s, sep).value;
      assert Split(s, sep) == [s[..i]] + Split(s[i + |sep|..], sep);
    }
  }

  // ---------------------------------------------------------------------
  // String.prototype.trim

  /** ECMAScript WhiteSpace and LineTerminator code points, the set `trim` removes. */
  predicate IsWhiteSpace(c: char)
  {
    var n := c as int;
    (0x09 <= n <= 0x0D) || n == 0x20 || n == 0xA0 || n == 0x1680
    || (0x2000 <= n <= 0x200A) || n == 0x2028 || n == 0x2029
    || n == 0x202F || n == 0x205F || n == 0x3000 || n == 0xFEFF
  }

  /** `s.trimStart()`: drops the leading white space and nothing else. */
  function TrimStart(s: string): (r: string)
    ensures |r| <= |s| && r == s[|s| - |r|..]
    ensures forall k :: 0 <= k < |s| - |r| ==> IsWhiteSpace(s[k])
    ensures r == [] || !IsWhiteSpace(r[0])
  {
    if s != [] && IsWhiteSpace(s[0]) then TrimStart(s[1..]) else s
  }

  /** `s.trimEnd()`: drops the trailing white space and nothing else. */
  function TrimEnd(s: string): (r: string)
    ensures |r| <= |s| && r == s[..|r|]
    ensures forall k :: |r| <= k < |s| ==> IsWhiteSpace(s[k])
    ensures r == [] || !IsWhiteSpace(r[|r| - 1])
  {
    if s != [] && IsWhiteSpace(s[|s| - 1]) then TrimEnd(s[..|s| - 1]) else s
  }

  /** `s.trim()`. */
  function Trim(s: string): (r: string)
  {
    TrimEnd(TrimStart(s))
  }

  /** What `trim` keeps sits in its input right after the leading white
      space. */
  lemma TrimKept(s: string)
    ensures var a := |s| - |TrimStart(s)|;
      a + |Trim(s)| <= |s| && s[a..a + |Trim(s)|] == Trim(s)
  {
    var t := TrimStart(s);
    var r := TrimEnd(t);
    var a := |s| - |t|;
    PrefixOfSuffix(s, a, |r|);
  }

  /** A prefix of a suffix is a slice. */
  lemma PrefixOfSuffix(s: string, a: nat, n: nat)
    requires a + n <= |s|
    ensures s[a..][..n] == s[a..a + n]
  {
  }

  /** What `trim` cuts off after the kept part is white space. */
  lemma TrimCutEnd(s: string)
    ensures var a := |s| - |TrimStart(s)|;
      forall k :: a + |Trim(s)| <= k < |s| ==> IsWhiteSpace(s[k])
  {
    var t := TrimStart(s);
    var r := TrimEnd(t);
    var a := |s| - |t|;
    forall k | a + |r| <= k < |s| ensures IsWhiteSpace(s[k]) {
      assert s[k] == t[k - a];
    }
  }

  /** `trim` keeps a contiguous part of its input, all of whose cut-off
      characters are white space. */
  lemma TrimShape(s: string)
    ensures var a := |s| - |TrimStart(s)|;
      a + |Trim(s)| <= |s| && s[a..a + |Trim(s)|] == Trim(s)
      && (forall k :: 0 <= k < a ==> IsWhiteSpace(s[k]))
      && (forall k :: a + |Trim(s)| <= k < |s| ==> IsWhiteSpace(s[k]))
  {
    TrimKept(s);
    TrimCutEnd(s);
  }

  /** What `trim` keeps neither starts nor ends with white space. */
  lemma TrimEdges(s: string)
    ensures Trim(s) == [] || (!IsWhiteSpace(Trim(s)[0]) && !IsWhiteSpace(Trim(s)[|Trim(s)| - 1]))
  {
    var t := TrimStart(s);
    var r := TrimEnd(t);
    assert r == Trim(s);
    if r != [] {
      assert r[0] == t[0];
    }
  }

  /** A string that neither starts nor ends with white space is its own trim. */
  lemma {:induction false} TrimUnchanged(s: string)
    requires s == [] || (!IsWhiteSpace(s[0]) && !IsWhiteSpace(s[|s| - 1]))
    ensures Trim(s) == s
  {
  }

  /** A string that ends in white space is changed by `trim`. */
  lemma TrimChangesPadded(s: string)
    requires s != [] && IsWhiteSpace(s[|s| - 1])
    ensures Trim(s) != s
  {
    TrimEdges(s);
  }

  /** `trim` is idempotent. */
  lemma TrimIdempotent(s: string)
    ensures Trim(Trim(s)) == Trim(s)
  {
    TrimEdges(s);
    TrimUnchanged(Trim(s));
  }

  // ---------------------------------------------------------------------
  // Number.prototype.toString() on non-negative integers

  predicate IsDigit(c: char)
  {
    '0' as int <= c as int <= '9' as int
  }

  predicate AllDigits(s: string)
  {
    forall k :: 0 <= k < |s| ==> IsDigit(s[k])
  }

  /** `n.toString()` for a non-negative integer `n`: its decimal digits. */
  function Decimal(n: nat): (r: string)
    ensures |r| >= 1 && AllDigits(r)
    ensures r[0] == '0' ==> n == 0 && r == "0"
  {
    if n < 10 then [('0' as int + n) as char]
    else Decimal(n / 10) + [('0' as int + n % 10) as char]
  }

  function DigitValue(c: char): (d: nat)
    requires IsDigit(c)
  {
    c as int - '0' as int
  }

  /** The number a string of decimal digits denotes. */
  function ParseDecimal(s: string): (n: nat)
    requires AllDigits(s)
  {
    if s == [] then 0
    else ParseDecimal(s[..|s| - 1]) * 10 + DigitValue(s[|s| - 1])
  }

  /** Reading back the decimal rendering of a number gives the number. */
  lemma {:induction false} DecimalRoundTrip(n: nat)
    ensures ParseDecimal(Decimal(n)) == n
  {
    if n >= 10 {
      DecimalRoundTrip(n / 10);
      var d := Decimal(n);
      assert d[..|d| - 1] == Decimal(n / 10);
    }
  }

  /** Distinct numbers render differently. */
  lemma DecimalInjective(m: nat, n: nat)
    requires Decimal(m) == Decimal(n)
    ensures m == n
  {
    DecimalRoundTrip(m);
    DecimalRoundTrip(n);
  }
}

=== FILE: s3_service.dfy ===
/** The object-store service: `uploadFile` builds the storage key, the
    `PutObject` parameters and the public URL of a staged file;
    `deleteFile` decodes and trims a key and accepts only a 204 reply.
    The S3 client's `send` and the URI codec are supplied from outside. */
module S3Service {
  import opened Wrappers
  import opened Js
  import opened Staging

  /** The parameters of a `PutObjectCommand`; the body stream is named by
      the staged path it reads from. */
  datatype PutObjectParams = PutObjectParams(
    bucket: string,
    key: string,
    bodyPath: string,
    contentType: string,
    contentDisposition: string,
    cacheControl: string,
    metadata: map<string, string>)

  /** The parameters of a `DeleteObjectCommand`. */
  datatype DeleteObjectParams = DeleteObjectParams(bucket: string, key: string)

  /** What `s3Client.send` yields: a response and its
      `$metadata.httpStatusCode`, or a thrown error. */
  datatype SendReply = Responded(httpStatusCode: nat) | Threw(error: JsError)

  /** The configured bucket and region, and the store's answer to each
      command. */
  datatype S3 = S3(
    bucket: string,
    region: string,
    putObject: PutObjectParams -> SendReply,
    deleteObject: DeleteObjectParams -> SendReply)

  /** `encodeURIComponent` and `decodeURIComponent`; `None` stands for the
      `URIError` they throw on malformed input. */
  datatype UriCoding = UriCoding(encode: string -> Option<string>, decode: string -> Option<string>)

  /** The error the URI functions throw. */
  const UriError: JsError := JsError("URIError", "URI malformed")

  const ContentDisposition: string := "inline"
  const CacheControl: string := "max-age=31536000"
  const DeleteSucceeded: nat := 204

  /** The record `uploadFile` resolves with. */
  datatype UploadResult = UploadResult(
    success: bool,
    fileUrl: string,
    fileName: string,
    contentType: string,
    size: nat,
    originalName: string)

  /** The record `deleteFile` resolves with. */
  datatype DeleteResult = DeleteResult(success: bool, key: string)

  /** The storage key `${Date.now()}-${random}-${originalname}`. */
  function StorageKey(stamp: Stamp, originalName: string): (key: string)
    ensures EndsWith(key, originalName)
    ensures ParseStampedName(key) == Some((stamp.now, stamp.random as nat, originalName))
  {
    StampedNameParses(stamp.now, stamp.random, originalName);
    StampedName(stamp.now, stamp.random, originalName)
  }

  /** The public URL of an object: `https://${bucket}.s3.${region}.amazonaws.com/${key}`. */
  function ObjectUrl(bucket: string, region: string, key: string): (url: string)
    ensures StartsWith(url, "https://" + bucket + ".s3." + region + ".")
    ensures EndsWith(url, "amazonaws.com/" + key)
    ensures |url| == |"https://" + bucket + ".s3." + region + "."| + |"amazonaws.com/" + key|
  {
    var url := "https://" + bucket + ".s3." + region + ".amazonaws.com/" + key;
    assert url == ("https://" + bucket + ".s3." + region + ".") + ("amazonaws.com/" + key);
    url
  }

  /** The `PutObjectCommand` parameters for a staged file under `key`, with
      the already encoded original name. */
  function PutParams(file: StagedFile, bucket: string, key: string, encodedName: string, isoDate: string): (p: PutObjectParams)
    ensures p.bucket == bucket && p.key == key && p.bodyPath == file.path
    ensures p.contentType == file.mimetype
    ensures p.contentDisposition == "inline" && p.cacheControl == "max-age=31536000"
    ensures p.metadata.Keys == {"original-name", "upload-date", "file-size"}
    ensures p.metadata["original-name"] == encodedName && p.metadata["upload-date"] == isoDate
    ensures AllDigits(p.metadata["file-size"]) && ParseDecimal(p.metadata["file-size"]) == file.size
  {
    DecimalRoundTrip(file.size);
    PutObjectParams(bucket, key, file.path, file.mimetype, ContentDisposition, CacheControl,
      map["original-name" := encodedName, "upload-date" := isoDate, "file-size" := Decimal(file.size)])
  }

  /** `uploadFile(file)`: one `PutObject` call under a fresh stamped key.
      It succeeds exactly when the name encodes and the store answers; the
      store's error is passed on unchanged, with no retry. */
  function UploadFile(file: StagedFile, s3: S3, uri: UriCoding, stamp: Stamp): (r: Result<UploadResult, JsError>)
    ensures var key := StorageKey(stamp, file.originalName);
      match uri.encode(file.originalName)
      case None => r == Failure(UriError)
      case Some(enc) =>
        var reply := s3.putObject(PutParams(file, s3.bucket, key, enc, stamp.isoDate));
        (r.Success? <==> reply.Responded?) && (reply.Threw? ==> r.error == reply.error)
    ensures r.Success? ==>
      r.value.success && r.value.fileName == StorageKey(stamp, file.originalName)
      && r.value.fileUrl == ObjectUrl(s3.bucket, s3.region, r.value.fileName)
      && r.value.contentType == file.mimetype && r.value.size == file.size
      && r.value.originalName == file.originalName
  {
    var key := StorageKey(stamp, file.originalName);
    match uri.encode(file.originalName)
    case None => Failure(UriError)
    case Some(enc) =>
      match s3.putObject(PutParams(file, s3.bucket, key, enc, stamp.isoDate))
      case Threw(e) => Failure(e)
      case Responded(_) =>
        Success(UploadResult(true, ObjectUrl(s3.bucket, s3.region, key), key, file.mimetype, file.size, file.originalName))
  }

  /** The error `deleteFile` throws for a reply other than 204. */
  function StatusError(status: nat): (e: JsError)
  {
    JsError("Error", "File deletion failed with status code: " + Decimal(status))
  }

  /** `deleteFile(key)`: decode and trim the key, send one `DeleteObject`,
      and succeed only on status 204. */
  function DeleteFile(key: string, s3: S3, uri: UriCoding): (r: Result<DeleteResult, JsError>)
    ensures uri.decode(key).None? ==> r == Failure(UriError)
    ensures r.Success? <==>
      uri.decode(key).Some?
      && s3.deleteObject(DeleteObjectParams(s3.bucket, Trim(uri.decode(key).value))) == Responded(DeleteSucceeded)
    ensures r.Success? ==> r.value == DeleteResult(true, Trim(uri.decode(key).value))
    ensures uri.decode(key).Some? ==>
      match s3.deleteObject(DeleteObjectParams(s3.bucket, Trim(uri.decode(key).value)))
      case Threw(e) => r == Failure(e)
      case Responded(status) => status != DeleteSucceeded ==> r == Failure(StatusError(status))
  {
    match uri.decode(key)
    case None => Failure(UriError)
    case Some(decoded) =>
      var decodedKey := Trim(decoded);
      match s3.deleteObject(DeleteObjectParams(s3.bucket, decodedKey))
      case Threw(e) => Failure(e)
      case Responded(status) =>
        if status == DeleteSucceeded then Success(DeleteResult(true, decodedKey))
        else Failure(StatusError(status))
  }

  /** The key a successful delete reports carries no surrounding white space. */
  lemma DeletedKeyTrimmed(key: string, s3: S3, uri: UriCoding)
    requires DeleteFile(key, s3, uri).Success?
    ensures var k := DeleteFile(key, s3, uri).value.key;
      k == [] || (!IsWhiteSpace(k[0]) && !IsWhiteSpace(k[|k| - 1]))
  {
    TrimEdges(uri.decode(key).value);
  }
}

=== FILE: staging.dfy ===
/** The local staging area: multer's disk storage writes every uploaded file
    under `uploads/` before the route handler runs, and the handler removes
    the staged files with `fs.unlinkSync`. */
module Staging {
  import opened Wrappers
  import opened Js

  /** The file object multer hands to the route: where the bytes were staged,
      the client's file name, the declared MIME type and the size in bytes.
      An empty `path` stands for a file object without one (falsy in
      JavaScript). */
  datatype StagedFile = StagedFile(path: string, originalName: string, mimetype: string, size: nat)

  /** The directory multer's `destination` callback returns. */
  const UploadDir: string := "uploads/"

  /** `Math.round(Math.random() * 1e9)` lies in 0 ..= 10^9. */
  const MaxRandom: nat := 1000000000

  type RandomDraw = r: nat | r <= MaxRandom

  /** What one naming step reads from the environment: `Date.now()`, one
      random draw, and `new Date().toISOString()`. */
  datatype Stamp = Stamp(now: nat, random: RandomDraw, isoDate: string)

  /** `${now}-${random}-${name}`: the unique-name scheme both multer's
      `filename` callback and the storage key use. */
  function StampedName(now: nat, random: nat, name: string): (r: string)
    ensures EndsWith(r, name)
    ensures |r| > |name| + 3
  {
    Decimal(now) + "-" + Decimal(random) + "-" + name
  }

  /** Reads a stamped name back into its timestamp, random number and
      original name. */
  function ParseStampedName(s: string): (r: Option<(nat, nat, string)>)
  {
    match IndexOf(s, "-")
    case None => None
    case Some(i) =>
      var rest := s[i + 1..];
      match IndexOf(rest, "-")
      case None => None
      case Some(j) =>
        if AllDigits(s[..i]) && AllDigits(rest[..j]) then
          Some((ParseDecimal(s[..i]), ParseDecimal(rest[..j]), rest[j + 1..]))
        else None
  }

  /** A stamped name determines the timestamp, the random number and the
      original name it was built from. */
  lemma StampedNameParses(now: nat, random: nat, name: string)
    ensures ParseStampedName(StampedName(now, random, name)) == Some((now, random, name))
  {
    var d1, d2 := Decimal(now), Decimal(random);
    var s := StampedName(now, random, name);
    var rest := d2 + "-" + name;
    assert s == d1 + "-" + rest;
    FirstCharOccurrence(s, '-', |d1|);
    assert s[|d1| + 1..] == rest;
    FirstCharOccurrence(rest, '-', |d2|);
    assert s[..|d1|] == d1;
    assert rest[..|d2|] == d2;
    assert rest[|d2| + 1..] == name;
    DecimalRoundTrip(now);
    DecimalRoundTrip(random);
  }

  /** Two stamped names are equal only if all their parts are. */
  lemma StampedNameInjective(now1: nat, random1: nat, name1: string, now2: nat, random2: nat, name2: string)
    requires StampedName(now1, random1, name1) == StampedName(now2, random2, name2)
    ensures now1 == now2 && random1 == random2 && name1 == name2
  {
    StampedNameParses(now1, random1, name1);
    StampedNameParses(now2, random2, name2);
  }

  /** The `uploads/` directory seen as the set of staged paths it holds.
      `stuck` is the set of paths the file system refuses to remove
      (permission or busy errors); `unlinkCalls` records every
      `fs.unlinkSync` call in the order it was made. */
  class StagingArea {
    var present: set<string>
    const stuck: set<string>
    var unlinkCalls: seq<string>

    constructor (present: set<string>, stuck: set<string>)
      ensures this.present == present && this.stuck == stuck && unlinkCalls == []
    {
      this.present := present;
      this.stuck := stuck;
      unlinkCalls := [];
    }

    /** `fs.unlinkSync(path)`: removes a staged path, or throws (`ok` is
        false) when the path is absent or the file system refuses. */
    method Unlink(path: string) returns (ok: bool)
      modifies this
      ensures ok == (path in old(present) && path !in stuck)
      ensures present == if ok then old(present) - {path} else old(present)
      ensures unlinkCalls == old(unlinkCalls) + [path]
    {
      ok := path in present && path !in stuck;
      if ok {
        present := present - {path};
      }
      unlinkCalls := unlinkCalls + [path];
    }
  }
}

=== FILE: upload_route.dfy ===
/** `POST /upload`: multer's file filter and naming rule, the whole-batch
    type check, the chunked upload loop that records one outcome per file
    and unlinks every staged file, and the summary response. */
module UploadRoute {
  import opened Wrappers
  import opened Js
  import opened Staging
  import opened S3Service

  const ImagePrefix: string := "image/"
  const ChunkSize: nat := 3

  // ---------------------------------------------------------------------
  // multer configuration

  predicate IsImage(file: StagedFile)
  {
    StartsWith(file.mimetype, ImagePrefix)
  }

  /** multer's `fileFilter`: accept an image, refuse anything else with an
      error. */
  function FileFilter(file: StagedFile): (r: Result<bool, JsError>)
    ensures r.Success? <==> StartsWith(file.mimetype, "image/")
    ensures r.Success? ==> r.value
    ensures r.Failure? ==> r.error.message == "Only image files are allowed!"
  {
    if IsImage(file) then Success(true)
    else Failure(JsError("Error", "Only image files are allowed!"))
  }

  /** Where multer's disk storage stages a file: `uploads/` followed by the
      `filename` callback's `${Date.now()}-${random}-${originalname}`. */
  function StagedPath(stamp: Stamp, originalName: string): (path: string)
    ensures StartsWith(path, UploadDir) && EndsWith(path, originalName)
    ensures ParseStampedName(path[|UploadDir|..]) == Some((stamp.now, stamp.random as nat, originalName))
  {
    var name := StampedName(stamp.now, stamp.random, originalName);
    StampedNameParses(stamp.now, stamp.random, originalName);
    assert (UploadDir + name)[|UploadDir|..] == name;
    UploadDir + name
  }

  // ---------------------------------------------------------------------
  // Whole-batch validation

  /** `req.files.filter(file => !file.mimetype.startsWith('image/'))`. */
  function InvalidFiles(files: seq<StagedFile>): (r: seq<StagedFile>)
    ensures |r| <= |files|
    ensures forall f :: f in r <==> f in files && !IsImage(f)
  {
    if files == [] then []
    else (if IsImage(files[0]) then [] else [files[0]]) + InvalidFiles(files[1..])
  }

  /** Filtering a concatenation filters each part and keeps them in
      order. */
  lemma {:induction false} InvalidFilesAppend(a: seq<StagedFile>, b: seq<StagedFile>)
    ensures InvalidFiles(a + b) == InvalidFiles(a) + InvalidFiles(b)
    decreases |a|
  {
    if a == [] {
      assert a + b == b;
    } else {
      InvalidFilesAppend(a[1..], b);
      ConsAppend(a, b);
      AppendAssoc(if IsImage(a[0]) then [] else [a[0]], InvalidFiles(a[1..]), InvalidFiles(b));
    }
  }

  /** The head and tail of a concatenation with a non-empty left operand. */
  lemma ConsAppend<T>(a: seq<T>, b: seq<T>)
    requires a != []
    ensures a + b != [] && (a + b)[0] == a[0] && (a + b)[1..] == a[1..] + b
  {
  }

  lemma AppendAssoc<T>(x: seq<T>, y: seq<T>, z: seq<T>)
    ensures (x + y) + z == x + (y + z)
  {
  }

  /** A single file is kept exactly when it is not an image. */
  lemma InvalidFilesSingle(f: StagedFile)
    ensures InvalidFiles([f]) == if IsImage(f) then [] else [f]
  {
    assert [f][1..] == [];
    assert InvalidFiles([]) == [];
  }

  /** The invalid files are listed in input order, duplicates kept: the
      `k`-th file of the batch is followed in the list by the invalid files
      after it. */
  lemma InvalidFilesAt(files: seq<StagedFile>, k: nat)
    requires k < |files|
    ensures InvalidFiles(files) ==
      InvalidFiles(files[..k]) + (if IsImage(files[k]) then [] else [files[k]]) + InvalidFiles(files[k + 1..])
  {
    var pre, f, post := files[..k], files[k], files[k + 1..];
    CutAt(files, k);
    InvalidFilesAppend(pre, [f] + post);
    InvalidFilesAppend([f], post);
    InvalidFilesSingle(f);
    AppendAssoc(InvalidFiles(pre), InvalidFiles([f]), InvalidFiles(post));
  }

  /** A sequence is its prefix, the element at the cut, and its suffix. */
  lemma CutAt<T>(s: seq<T>, k: nat)
    requires k < |s|
    ensures s == s[..k] + ([s[k]] + s[k + 1..])
  {
  }

  /** `files.map(f => f.originalname)`. */
  function Names(files: seq<StagedFile>): (r: seq<string>)
    ensures |r| == |files| && forall k :: 0 <= k < |files| ==> r[k] == files[k].originalName
  {
    if files == [] then [] else [files[0].originalName] + Names(files[1..])
  }

  /** Files that got through multer's filter are all images, so the
      route's own type check finds nothing to reject. */
  lemma {:induction false} FilteredBatchValid(files: seq<StagedFile>)
    requires forall k :: 0 <= k < |files| ==> FileFilter(files[k]).Success?
    ensures InvalidFiles(files) == []
  {
    if files != [] {
      FilteredBatchValid(files[1..]);
    }
  }

  // ---------------------------------------------------------------------
  // Staging paths

  /** The `fs.unlinkSync` calls `forEach(file => if (file.path) unlink(file.path))`
      makes, in order. */
  function PathsOf(files: seq<StagedFile>): (r: seq<string>)
    ensures |r| <= |files|
  {
    if files == [] then []
    else
      var last := files[|files| - 1];
      PathsOf(files[..|files| - 1]) + (if last.path != "" then [last.path] else [])
  }

  /** Taking one more file of the sequence adds its unlink call, if any. */
  lemma PathsOfNext(files: seq<StagedFile>, k: nat)
    requires k < |files|
    ensures PathsOf(files[..k + 1])
      == PathsOf(files[..k]) + (if files[k].path != "" then [files[k].path] else [])
  {
    assert files[..k + 1][..k] == files[..k];
  }

  /** The staged paths of the files at the positions in `done`. */
  function StagedPaths(files: seq<StagedFile>, done: set<nat>): (paths: set<string>)
  {
    set i | i in done && i < |files| && files[i].path != "" :: files[i].path
  }

  /** The positions 0 .. n - 1. */
  function RangeSet(n: nat): (r: set<nat>)
    ensures forall i :: i in r <==> 0 <= i < n
  {
    if n == 0 then {} else RangeSet(n - 1) + {n - 1}
  }

  lemma RangeSetNext(n: nat)
    ensures RangeSet(n + 1) == RangeSet(n) + {n}
  {
  }

  lemma {:induction false} RangeSetSize(n: nat)
    ensures |RangeSet(n)| == n
  {
    if n > 0 {
      RangeSetSize(n - 1);
    }
  }

  lemma StagedPathsAdd(files: seq<StagedFile>, done: set<nat>, i: nat)
    requires i < |files|
    ensures StagedPaths(files, done + {i})
      == StagedPaths(files, done) + (if files[i].path != "" then {files[i].path} else {})
  {
  }

  lemma StagedPathsMono(files: seq<StagedFile>, a: set<nat>, b: set<nat>)
    requires a <= b
    ensures StagedPaths(files, a) <= StagedPaths(files, b)
  {
  }

  /** Every path `PathsOf` lists is a staged path of the sequence. */
  lemma {:induction false} PathsOfStaged(files: seq<StagedFile>)
    ensures forall p :: p in PathsOf(files) <==> p in StagedPaths(files, RangeSet(|files|))
  {
    if files != [] {
      var n := |files| - 1;
      PathsOfStaged(files[..n]);
      forall i | 0 <= i < n ensures files[..n][i] == files[i] { }
      assert StagedPaths(files[..n], RangeSet(n)) == StagedPaths(files, RangeSet(n));
      StagedPathsAdd(files, RangeSet(n), n);
      assert RangeSet(n) + {n} == RangeSet(|files|);
    }
  }

  /** The `finally` unlink calls of tasks that settle in the order `order`:
      the staged path of each position in turn, none for a file without
      one. */
  function PathsIn(files: seq<StagedFile>, order: seq<nat>): (r: seq<string>)
    ensures |r| <= |order|
  {
    if order == [] then []
    else
      var i := order[|order| - 1];
      PathsIn(files, order[..|order| - 1]) + (if i < |files| && files[i].path != "" then [files[i].path] else [])
  }

  /** One more task settling adds its unlink call, if any. */
  lemma PathsInNext(files: seq<StagedFile>, order: seq<nat>, i: nat)
    requires i < |files|
    ensures PathsIn(files, order + [i])
      == PathsIn(files, order) + (if files[i].path != "" then [files[i].path] else [])
  {
    assert (order + [i])[..|order|] == order;
  }

  lemma {:induction false} PathsInAppend(files: seq<StagedFile>, a: seq<nat>, b: seq<nat>)
    ensures PathsIn(files, a + b) == PathsIn(files, a) + PathsIn(files, b)
    decreases |b|
  {
    if b == [] {
      assert a + b == a;
    } else {
      var n := |b| - 1;
      PathsInAppend(files, a, b[..n]);
      assert (a + b)[..|a + b| - 1] == a + b[..n];
      assert (a + b)[|a + b| - 1] == b[n];
      var step := if b[n] < |files| && files[b[n]].path != "" then [files[b[n]].path] else [];
      AppendAssoc(PathsIn(files, a), PathsIn(files, b[..n]), step);
    }
  }

  /** Taking the task at position `q` out of a settle order takes its
      unlink call out of the calls. */
  lemma PathsInCut(files: seq<StagedFile>, b: seq<nat>, q: nat)
    requires q < |b|
    ensures multiset(b) == multiset(b[..q] + b[q + 1..]) + multiset{b[q]}
    ensures multiset(PathsIn(files, b))
      == multiset(PathsIn(files, b[..q] + b[q + 1..])) + multiset(PathsIn(files, [b[q]]))
  {
    CutAt(b, q);
    PathsInAppend(files, b[..q], [b[q]] + b[q + 1..]);
    PathsInAppend(files, [b[q]], b[q + 1..]);
    PathsInAppend(files, b[..q], b[q + 1..]);
  }

  lemma MultisetCancel<T>(m: multiset<T>, m': multiset<T>, x: T)
    requires m + multiset{x} == m' + multiset{x}
    ensures m == m'
  {
    assert forall y :: m[y] == (m + multiset{x})[y] - multiset{x}[y];
  }

  /** Settling the same tasks in another order makes the same unlink
      calls in another order. */
  lemma {:induction false} PathsInReorder(files: seq<StagedFile>, a: seq<nat>, b: seq<nat>)
    requires multiset(a) == multiset(b)
    ensures multiset(PathsIn(files, a)) == multiset(PathsIn(files, b))
    decreases |a|
  {
    if a == [] {
      assert |b| == |multiset(b)| == 0;
    } else {
      var n := |a| - 1;
      var x := a[n];
      assert x in multiset(b);
      var q :| 0 <= q < |b| && b[q] == x;
      PathsInCut(files, a, n);
      PathsInCut(files, b, q);
      assert a[..n] + a[n + 1..] == a[..n];
      MultisetCancel(multiset(a[..n]), multiset(b[..q] + b[q + 1..]), x);
      PathsInReorder(files, a[..n], b[..q] + b[q + 1..]);
    }
  }

  /** The positions 0 .. n - 1, in increasing order. */
  function Positions(n: nat): (r: seq<nat>)
    ensures |r| == n && forall i :: 0 <= i < n ==> r[i] == i
  {
    if n == 0 then [] else Positions(n - 1) + [n - 1]
  }

  /** Tasks settling in increasing position order make the `forEach`
      calls. */
  lemma {:induction false} PathsOfPositions(files: seq<StagedFile>, n: nat)
    requires n <= |files|
    ensures PathsIn(files, Positions(n)) == PathsOf(files[..n])
  {
    if n == 0 {
      assert files[..0] == [];
    } else {
      var m := n - 1;
      var ps := Positions(m);
      assert Positions(n) == ps + [m];
      PathsOfPositions(files, m);
      PathsInNext(files, ps, m);
      PathsOfNext(files, m);
    }
  }

  /** In a sequence without repetitions every element occurs once. */
  lemma {:induction false} DistinctMultiset(s: seq<nat>)
    requires Distinct(s)
    ensures forall x :: multiset(s)[x] == if x in s then 1 else 0
  {
    if s != [] {
      var n := |s| - 1;
      assert s == s[..n] + [s[n]];
      assert Distinct(s[..n]);
      DistinctMultiset(s[..n]);
      assert s[n] !in s[..n];
    }
  }

  /** Whatever order the tasks of the first `n` positions settle in, their
      `finally` blocks make exactly the unlink calls of a `forEach` over
      those files: each staged path once per file naming it, in some
      order. */
  lemma SettledUnlinks(files: seq<StagedFile>, order: seq<nat>, n: nat)
    requires n <= |files| && Settled(order, RangeSet(n))
    ensures multiset(PathsIn(files, order)) == multiset(PathsOf(files[..n]))
  {
    var ps := Positions(n);
    forall x: nat | x < n ensures x in ps {
      assert ps[x] == x;
    }
    DistinctMultiset(order);
    DistinctMultiset(ps);
    assert forall x :: multiset(order)[x] == multiset(ps)[x];
    assert multiset(order) == multiset(Positions(n));
    PathsInReorder(files, order, Positions(n));
    PathsOfPositions(files, n);
  }

  // ---------------------------------------------------------------------
  // Chunking

  /** What `while (files.length > 0) chunk = files.splice(0, 3)` cuts a
      batch into. */
  function Chunks<T>(s: seq<T>): (chunks: seq<seq<T>>)
    decreases |s|
  {
    if s == [] then []
    else
      var k := if |s| < ChunkSize then |s| else ChunkSize;
      [s[..k]] + Chunks(s[k..])
  }

  function Flatten<T>(ss: seq<seq<T>>): (flat: seq<T>)
  {
    if ss == [] then [] else ss[0] + Flatten(ss[1..])
  }

  /** The chunks, concatenated in order, give back the batch. */
  lemma {:induction false} ChunksFlatten<T>(s: seq<T>)
    ensures Flatten(Chunks(s)) == s
    decreases |s|
  {
    if s != [] {
      var k := if |s| < ChunkSize then |s| else ChunkSize;
      ChunksFlatten(s[k..]);
      assert Chunks(s)[1..] == Chunks(s[k..]);
      assert s == s[..k] + s[k..];
    }
  }

  /** There are ceil(n / 3) chunks; all hold three elements except the
      last, which holds one to three. */
  lemma {:induction false} ChunksShape<T>(s: seq<T>)
    ensures |Chunks(s)| == (|s| + ChunkSize - 1) / ChunkSize
    ensures forall c :: 0 <= c < |Chunks(s)| ==> 0 < |Chunks(s)[c]| <= ChunkSize
    ensures forall c :: 0 <= c < |Chunks(s)| - 1 ==> |Chunks(s)[c]| == ChunkSize
    decreases |s|
  {
    if s != [] {
      var k := if |s| < ChunkSize then |s| else ChunkSize;
      ChunksShape(s[k..]);
      assert Chunks(s) == [s[..k]] + Chunks(s[k..]);
    }
  }

  /** Chunk `c` holds exactly the elements at positions `3c` up to
      `3c + 3` (or the end), so the element at position `i` is in chunk
      `i / 3`. */
  lemma {:induction false} ChunkAt<T>(s: seq<T>, c: nat)
    requires c < |Chunks(s)|
    ensures c * ChunkSize < |s|
    ensures Chunks(s)[c] == s[c * ChunkSize..if (c + 1) * ChunkSize < |s| then (c + 1) * ChunkSize else |s|]
    decreases c
  {
    var k := if |s| < ChunkSize then |s| else ChunkSize;
    assert Chunks(s) == [s[..k]] + Chunks(s[k..]);
    if c > 0 {
      ChunkAt(s[k..], c - 1);
      assert c * ChunkSize == (c - 1) * ChunkSize + ChunkSize;
      assert (c + 1) * ChunkSize == c * ChunkSize + ChunkSize;
    }
  }

  /** Once a multiple of three elements has been cut off and some remain,
      the next splice is the next chunk. */
  lemma ChunkNext<T>(s: seq<T>, base: nat)
    requires base % ChunkSize == 0 && base < |s|
    ensures base / ChunkSize < |Chunks(s)|
    ensures Chunks(s)[base / ChunkSize] == s[base..if |s| - base < ChunkSize then |s| else base + ChunkSize]
  {
    ChunksShape(s);
    var c := base / ChunkSize;
    assert c * ChunkSize == base;
    ChunkAt(s, c);
    assert (c + 1) * ChunkSize == base + ChunkSize;
  }

  /** When the splice that emptied the batch was splice number `d`, there
      were exactly `d` chunks. */
  lemma ChunksExhausted<T>(s: seq<T>, d: nat)
    requires d == 0 || (d - 1) * ChunkSize < |s|
    requires |s| <= d * ChunkSize
    ensures d == |Chunks(s)|
  {
    ChunksShape(s);
  }

  // ---------------------------------------------------------------------
  // Per-file outcomes

  /** An entry of `results.successful`. */
  datatype SuccessRecord = SuccessRecord(originalName: string, fileUrl: string, fileName: string, size: nat, mimetype: string)

  /** An entry of `results.failed`. */
  datatype FailureRecord = FailureRecord(originalName: string, error: string)

  /** The outside world one request sees: the store, the URI codec, and the
      stamp (clock reading and random draw) the upload of the file at each
      position reads. */
  datatype Env = Env(s3: S3, uri: UriCoding, clock: nat -> Stamp)

  /** The outcome of `uploadFile` for the file at position `i`. */
  function Attempt(files: seq<StagedFile>, env: Env, i: nat): (r: Result<UploadResult, JsError>)
    requires i < |files|
  {
    UploadFile(files[i], env.s3, env.uri, env.clock(i))
  }

  function SuccessOf(file: StagedFile, result: UploadResult): (r: SuccessRecord)
  {
    SuccessRecord(file.originalName, result.fileUrl, result.fileName, file.size, file.mimetype)
  }

  function FailureOf(file: StagedFile, error: JsError): (r: FailureRecord)
  {
    FailureRecord(file.originalName, error.message)
  }

  predicate Distinct(s: seq<nat>)
  {
    forall p, q :: 0 <= p < q < |s| ==> s[p] != s[q]
  }

  lemma DistinctAppend(s: seq<nat>, x: nat)
    requires Distinct(s) && x !in s
    ensures Distinct(s + [x])
  {
    var t := s + [x];
    forall p, q | 0 <= p < q < |t| ensures t[p] != t[q] {
      if q == |s| {
        assert t[p] == s[p];
      }
    }
  }

  /** Positions appear chunk by chunk: one from a later chunk never precedes
      one from an earlier chunk. */
  predicate ChunkOrdered(order: seq<nat>)
  {
    forall p, q :: 0 <= p < q < |order| ==> order[p] / ChunkSize <= order[q] / ChunkSize
  }

  lemma ChunkOrderedAppend(s: seq<nat>, x: nat)
    requires ChunkOrdered(s)
    requires forall p :: 0 <= p < |s| ==> s[p] / ChunkSize <= x / ChunkSize
    ensures ChunkOrdered(s + [x])
  {
    var t := s + [x];
    forall p, q | 0 <= p < q < |t| ensures t[p] / ChunkSize <= t[q] / ChunkSize {
      assert t[p] == s[p];
    }
  }

  /** `order` lists the positions in `done`, each once, in the order their
      tasks settled; since a chunk starts only after the previous one has
      settled, it goes chunk by chunk. */
  ghost predicate Settled(order: seq<nat>, done: set<nat>)
  {
    Distinct(order) && ChunkOrdered(order) && (forall j :: j in order <==> j in done)
  }

  /** One more task settles, in a chunk no earlier than any settled so
      far. */
  lemma SettleStep(order: seq<nat>, done: set<nat>, i: nat)
    requires Settled(order, done) && i !in done
    requires forall j :: j in done ==> j / ChunkSize <= i / ChunkSize
    ensures Settled(order + [i], done + {i})
  {
    DistinctAppend(order, i);
    forall p | 0 <= p < |order| ensures order[p] / ChunkSize <= i / ChunkSize {
      assert order[p] in done;
    }
    ChunkOrderedAppend(order, i);
  }

  /** The record the task for `file` pushes once its upload settles with
      `outcome`: a success record, or a failure record carrying the error's
      message. */
  function RecordOf(file: StagedFile, outcome: Result<UploadResult, JsError>): (r: Result<SuccessRecord, FailureRecord>)
    ensures r.Success? <==> outcome.Success?
    ensures r.Success? ==>
      r.value.originalName == file.originalName && r.value.fileUrl == outcome.value.fileUrl
      && r.value.fileName == outcome.value.fileName && r.value.size == file.size && r.value.mimetype == file.mimetype
    ensures r.Failure? ==> r.error.originalName == file.originalName && r.error.error == outcome.error.message
  {
    match outcome
    case Success(result) => Success(SuccessOf(file, result))
    case Failure(error) => Failure(FailureOf(file, error))
  }

  /** The record of every position of the batch. */
  function Records(files: seq<StagedFile>, env: Env): (r: seq<Result<SuccessRecord, FailureRecord>>)
    ensures |r| == |files|
  {
    seq(|files|, i requires 0 <= i < |files| => RecordOf(files[i], Attempt(files, env, i)))
  }

  /** A position's record is a success exactly when that file's upload
      succeeded. */
  lemma RecordsOutcome(files: seq<StagedFile>, env: Env)
    ensures forall i :: 0 <= i < |files| ==>
      (Records(files, env)[i].Success? <==> Attempt(files, env, i).Success?)
  {
  }

  /** The success records of the positions of `order`, in that order: what
      `results.successful` holds once those tasks have settled in that
      order. */
  function Successes<S, F>(records: seq<Result<S, F>>, order: seq<nat>): (r: seq<S>)
    ensures |r| <= |order|
  {
    if order == [] then []
    else
      var i := order[|order| - 1];
      Successes(records, order[..|order| - 1])
        + (if i < |records| && records[i].Success? then [records[i].value] else [])
  }

  /** The failure records of the positions of `order`, in that order: what
      `results.failed` holds once those tasks have settled in that order. */
  function Failures<S, F>(records: seq<Result<S, F>>, order: seq<nat>): (r: seq<F>)
    ensures |r| <= |order|
  {
    if order == [] then []
    else
      var i := order[|order| - 1];
      Failures(records, order[..|order| - 1])
        + (if i < |records| && records[i].Failure? then [records[i].error] else [])
  }

  /** The positions of `order` whose records are successes, in the same
      order. */
  function SuccessPositions<S, F>(records: seq<Result<S, F>>, order: seq<nat>): (r: seq<nat>)
    ensures forall i :: i in r <==> i in order && i < |records| && records[i].Success?
  {
    if order == [] then []
    else
      var i := order[|order| - 1];
      SuccessPositions(records, order[..|order| - 1])
        + (if i < |records| && records[i].Success? then [i] else [])
  }

  /** The positions of `order` whose records are failures, in the same
      order. */
  function FailurePositions<S, F>(records: seq<Result<S, F>>, order: seq<nat>): (r: seq<nat>)
    ensures forall i :: i in r <==> i in order && i < |records| && records[i].Failure?
  {
    if order == [] then []
    else
      var i := order[|order| - 1];
      FailurePositions(records, order[..|order| - 1])
        + (if i < |records| && records[i].Failure? then [i] else [])
  }

  /** The `p`-th success record is the record of the `p`-th successful
      position. */
  lemma {:induction false} SuccessesMatch<S, F>(records: seq<Result<S, F>>, order: seq<nat>)
    ensures |Successes(records, order)| == |SuccessPositions(records, order)|
    ensures forall p :: 0 <= p < |SuccessPositions(records, order)| ==>
      var i := SuccessPositions(records, order)[p];
      i < |records| && records[i].Success? && Successes(records, order)[p] == records[i].value
    decreases |order|
  {
    if order != [] {
      SuccessesMatch(records, order[..|order| - 1]);
    }
  }

  /** The `p`-th failure record is the record of the `p`-th failed
      position. */
  lemma {:induction false} FailuresMatch<S, F>(records: seq<Result<S, F>>, order: seq<nat>)
    ensures |Failures(records, order)| == |FailurePositions(records, order)|
    ensures forall p :: 0 <= p < |FailurePositions(records, order)| ==>
      var i := FailurePositions(records, order)[p];
      i < |records| && records[i].Failure? && Failures(records, order)[p] == records[i].error
    decreases |order|
  {
    if order != [] {
      FailuresMatch(records, order[..|order| - 1]);
    }
  }

  /** Every settled position of the batch yields exactly one record. */
  lemma {:induction false} LedgerCounts<S, F>(records: seq<Result<S, F>>, order: seq<nat>)
    requires forall j :: j in order ==> j < |records|
    ensures |Successes(records, order)| + |Failures(records, order)| == |order|
    decreases |order|
  {
    if order != [] {
      var n := |order| - 1;
      assert forall j :: j in order[..n] ==> j in order;
      LedgerCounts(records, order[..n]);
      assert order[n] in order;
    }
  }

  /** The elements of a sequence of positions. */
  function Elements(s: seq<nat>): (r: set<nat>)
    ensures forall x :: x in r <==> x in s
  {
    if s == [] then {} else Elements(s[..|s| - 1]) + {s[|s| - 1]}
  }

  /** A sequence without repetitions has as many elements as entries. */
  lemma {:induction false} DistinctElements(s: seq<nat>)
    requires Distinct(s)
    ensures |Elements(s)| == |s|
    decreases |s|
  {
    if s != [] {
      var n := |s| - 1;
      assert Distinct(s[..n]) by {
        forall p, q | 0 <= p < q < n ensures s[..n][p] != s[..n][q] {
          assert s[..n][p] == s[p] && s[..n][q] == s[q];
        }
      }
      DistinctElements(s[..n]);
      assert s[n] !in s[..n] by {
        forall p | 0 <= p < n ensures s[..n][p] != s[n] {
          assert s[..n][p] == s[p];
        }
      }
      assert Elements(s) == Elements(s[..n]) + {s[n]};
    }
  }

  /** A sequence of distinct positions holding exactly those below `n`
      has length `n`. */
  lemma SettledCovers(order: seq<nat>, n: nat)
    requires Distinct(order)
    requires forall j :: j in order <==> j in RangeSet(n)
    ensures |order| == n
  {
    DistinctElements(order);
    RangeSetSize(n);
    assert Elements(order) == RangeSet(n);
  }

  /** Nothing failed exactly when no position of `order` holds a failure. */
  lemma NoFailures<S, F>(records: seq<Result<S, F>>, order: seq<nat>)
    ensures Failures(records, order) == [] <==>
      forall i :: i in order && i < |records| ==> records[i].Success?
  {
    FailuresMatch(records, order);
    if Failures(records, order) != [] {
      assert records[FailurePositions(records, order)[0]].Failure?;
    }
    if exists i :: i in order && i < |records| && records[i].Failure? {
      var i :| i in order && i < |records| && records[i].Failure?;
      assert i in FailurePositions(records, order);
    }
  }

  /** Once every position of the batch has settled, the records add up to
      the batch size; a position is among the successful ones exactly when
      its record is a success and among the failed ones exactly when it is
      a failure; and nothing failed exactly when every record is a
      success. */
  lemma LedgerComplete<S, F>(records: seq<Result<S, F>>, order: seq<nat>)
    requires Settled(order, RangeSet(|records|))
    ensures |Successes(records, order)| + |Failures(records, order)| == |records|
    ensures forall i :: 0 <= i < |records| ==>
      (i in SuccessPositions(records, order) <==> records[i].Success?)
      && (i in FailurePositions(records, order) <==> records[i].Failure?)
    ensures Failures(records, order) == [] <==> forall i :: 0 <= i < |records| ==> records[i].Success?
  {
    SettledCovers(order, |records|);
    LedgerCounts(records, order);
    NoFailures(records, order);
  }

  /** Dropping the last entry of a chunk-ordered sequence leaves one, all
      of whose entries lie in chunks no later than the dropped one. */
  lemma ChunkOrderedLast(s: seq<nat>)
    requires s != [] && ChunkOrdered(s)
    ensures ChunkOrdered(s[..|s| - 1])
    ensures forall x :: x in s[..|s| - 1] ==> x / ChunkSize <= s[|s| - 1] / ChunkSize
  {
    var n := |s| - 1;
    forall p, q | 0 <= p < q < n ensures s[..n][p] / ChunkSize <= s[..n][q] / ChunkSize {
      assert s[..n][p] == s[p] && s[..n][q] == s[q];
    }
    forall x | x in s[..n] ensures x / ChunkSize <= s[n] / ChunkSize {
      var p :| 0 <= p < n && s[..n][p] == x;
      assert s[p] == x;
    }
  }

  /** Successes are listed chunk by chunk. */
  lemma {:induction false} SuccessesChunkOrdered<S, F>(records: seq<Result<S, F>>, order: seq<nat>)
    requires ChunkOrdered(order)
    ensures ChunkOrdered(SuccessPositions(records, order))
    decreases |order|
  {
    if order != [] {
      var n := |order| - 1;
      ChunkOrderedLast(order);
      SuccessesChunkOrdered(records, order[..n]);
      var sp := SuccessPositions(records, order[..n]);
      assert forall p :: 0 <= p < |sp| ==> sp[p] in order[..n];
      ChunkOrderedAppend(sp, order[n]);
    }
  }

  /** Failures are listed chunk by chunk. */
  lemma {:induction false} FailuresChunkOrdered<S, F>(records: seq<Result<S, F>>, order: seq<nat>)
    requires ChunkOrdered(order)
    ensures ChunkOrdered(FailurePositions(records, order))
    decreases |order|
  {
    if order != [] {
      var n := |order| - 1;
      ChunkOrderedLast(order);
      FailuresChunkOrdered(records, order[..n]);
      var fp := FailurePositions(records, order[..n]);
      assert forall p :: 0 <= p < |fp| ==> fp[p] in order[..n];
      ChunkOrderedAppend(fp, order[n]);
    }
  }


  // ---------------------------------------------------------------------
  // Responses

  datatype UploadBody =
    | Notice(message: string)
    | InvalidTypes(message: string, invalidFiles: seq<string>)
    | Summary(message: string, totalProcessed: nat, successCount: nat, failureCount: nat,
              successful: seq<SuccessRecord>, failed: Option<seq<FailureRecord>>)
    | ProcessFailed(message: string, error: string)

  /** What the handler does with the request: answer with a status and a
      JSON body, or reject its promise with the error an `unlinkSync` call
      threw on the given path (no response is written). */
  datatype UploadOutcome = Reply(status: nat, body: UploadBody) | Unanswered(failedPath: string)

  /** The summary response built from the two result lists. */
  function Summarize(total: nat, successful: seq<SuccessRecord>, failed: seq<FailureRecord>): (out: UploadOutcome)
    ensures out.Reply? && out.body.Summary?
    ensures out.status == 200 <==> failed == []
    ensures out.status == 207 <==> failed != []
    ensures out.body.message == if failed == [] then "All uploads successful" else "Some uploads failed"
    ensures out.body.failed.Some? <==> failed != []
    ensures out.body.failed.Some? ==> out.body.failed.value == failed
    ensures out.body.successful == successful && out.body.totalProcessed == total
    ensures out.body.successCount == |successful| && out.body.failureCount == |failed|
  {
    var message := if |failed| == 0 then "All uploads successful" else "Some uploads failed";
    var status := if |failed| == 0 then 200 else 207;
    Reply(status, Summary(message, total, |successful|, |failed|, successful,
      if |failed| > 0 then Some(failed) else None))
  }

  /** An error thrown inside the `try` block outside every per-file task:
      just before chunk `atChunk` is dispatched, or, when there is no such
      chunk, after the last one. */
  datatype Catastrophe = Catastrophe(atChunk: nat, message: string)

  // ---------------------------------------------------------------------
  // The handler

  /** Whether the unlink of the `j`-th invalid file's staged copy succeeds
      when its turn comes: an empty path is skipped, and any other path must
      still be present (no earlier position removed it) and not be stuck. */
  ghost predicate UnlinkSucceeds(invalid: seq<StagedFile>, j: nat, present0: set<string>, stuck: set<string>)
    requires j < |invalid|
  {
    invalid[j].path == ""
    || (invalid[j].path !in stuck && invalid[j].path in present0 - StagedPaths(invalid, RangeSet(j)))
  }

  /** Every unlink before position `n` succeeded in its turn. */
  ghost predicate UnlinkedInTurn(invalid: seq<StagedFile>, n: nat, present0: set<string>, stuck: set<string>)
    requires n <= |invalid|
  {
    forall j :: 0 <= j < n ==> UnlinkSucceeds(invalid, j, present0, stuck)
  }

  /** What the invalid-type branch leaves behind. Either every invalid
      file's staged copy was unlinked, in order, each unlink succeeding, and
      the reply is 400 with their names; or the unlink of the `k`-th invalid
      file was the first to fail (its path is stuck, or already gone), the
      handler stopped there without a reply, and only the copies before it
      were removed. */
  ghost predicate InvalidRejected(invalid: seq<StagedFile>, out: UploadOutcome,
    calls0: seq<string>, present0: set<string>, calls: seq<string>, present: set<string>,
    stuck: set<string>)
  {
    (out.Reply? ==>
      out == Reply(400, InvalidTypes("Invalid file types detected", Names(invalid)))
      && UnlinkedInTurn(invalid, |invalid|, present0, stuck)
      && calls == calls0 + PathsOf(invalid)
      && present == present0 - StagedPaths(invalid, RangeSet(|invalid|)))
    && (out.Unanswered? ==>
      exists k :: 0 <= k < |invalid| && invalid[k].path == out.failedPath
        && out.failedPath != ""
        && UnlinkedInTurn(invalid, k, present0, stuck)
        && calls == calls0 + PathsOf(invalid[..k + 1])
        && present == present0 - StagedPaths(invalid, RangeSet(k))
        && (out.failedPath in stuck || out.failedPath !in present))
  }

  /** The invalid-type branch answers exactly when every unlink succeeds in
      its turn; otherwise it ends unanswered. */
  lemma RejectionAnswersIff(invalid: seq<StagedFile>, out: UploadOutcome,
      calls0: seq<string>, present0: set<string>, calls: seq<string>, present: set<string>,
      stuck: set<string>)
    requires InvalidRejected(invalid, out, calls0, present0, calls, present, stuck)
    ensures out.Reply? <==> UnlinkedInTurn(invalid, |invalid|, present0, stuck)
  {
    if out.Unanswered? {
      var k :| 0 <= k < |invalid| && invalid[k].path == out.failedPath
        && out.failedPath != ""
        && present == present0 - StagedPaths(invalid, RangeSet(k))
        && (out.failedPath in stuck || out.failedPath !in present);
      assert !UnlinkSucceeds(invalid, k, present0, stuck);
    }
  }

  /** A failing unlink of the `k`-th invalid file, after all earlier ones
      succeeded, ends the rejection. */
  lemma RejectionStopsAt(invalid: seq<StagedFile>, k: nat,
      calls0: seq<string>, present0: set<string>, calls: seq<string>, present: set<string>,
      stuck: set<string>)
    requires k < |invalid| && invalid[k].path != ""
    requires UnlinkedInTurn(invalid, k, present0, stuck)
    requires calls == calls0 + PathsOf(invalid[..k + 1])
    requires present == present0 - StagedPaths(invalid, RangeSet(k))
    requires invalid[k].path in stuck || invalid[k].path !in present
    ensures InvalidRejected(invalid, Unanswered(invalid[k].path), calls0, present0, calls, present, stuck)
  {
  }

  /** Unlinking every invalid file, each in its turn, ends the rejection
      with the 400 reply. */
  lemma RejectionCompletes(invalid: seq<StagedFile>,
      calls0: seq<string>, present0: set<string>, calls: seq<string>, present: set<string>,
      stuck: set<string>)
    requires UnlinkedInTurn(invalid, |invalid|, present0, stuck)
    requires calls == calls0 + PathsOf(invalid[..|invalid|])
    requires present == present0 - StagedPaths(invalid, RangeSet(|invalid|))
    ensures InvalidRejected(invalid, Reply(400, InvalidTypes("Invalid file types detected", Names(invalid))),
      calls0, present0, calls, present, stuck)
  {
    assert invalid[..|invalid|] == invalid;
  }

  /** Removes the staged copies of the invalid files, in order, with no
      `try` around `unlinkSync`: the first failing call ends the handler
      without a response. Otherwise the answer is 400 with the invalid
      files' names. */
  method RejectInvalid(invalid: seq<StagedFile>, staging: StagingArea) returns (out: UploadOutcome)
    modifies staging
    ensures InvalidRejected(invalid, out, old(staging.unlinkCalls), old(staging.present),
      staging.unlinkCalls, staging.present, staging.stuck)
  {
    var k := 0;
    while k < |invalid|
      invariant 0 <= k <= |invalid|
      invariant staging.unlinkCalls == old(staging.unlinkCalls) + PathsOf(invalid[..k])
      invariant staging.present == old(staging.present) - StagedPaths(invalid, RangeSet(k))
      invariant UnlinkedInTurn(invalid, k, old(staging.present), staging.stuck)
    {
      var ok := UnlinkInvalid(invalid, k, staging, old(staging.unlinkCalls), old(staging.present));
      if !ok {
        return Unanswered(invalid[k].path);
      }
      k := k + 1;
    }
    out := Reply(400, InvalidTypes("Invalid file types detected", Names(invalid)));
    RejectionCompletes(invalid, old(staging.unlinkCalls), old(staging.present),
      staging.unlinkCalls, staging.present, staging.stuck);
  }

  /** One step of `RejectInvalid`: the unlink of the `k`-th invalid file's
      staged copy, which either removes it or ends the rejection. */
  method UnlinkInvalid(invalid: seq<StagedFile>, k: nat, staging: StagingArea,
      ghost calls0: seq<string>, ghost present0: set<string>)
    returns (ok: bool)
    requires k < |invalid|
    requires staging.unlinkCalls == calls0 + PathsOf(invalid[..k])
    requires staging.present == present0 - StagedPaths(invalid, RangeSet(k))
    requires UnlinkedInTurn(invalid, k, present0, staging.stuck)
    modifies staging
    ensures ok == (invalid[k].path == ""
      || (invalid[k].path in old(staging.present) && invalid[k].path !in staging.stuck))
    ensures ok ==>
      staging.unlinkCalls == calls0 + PathsOf(invalid[..k + 1])
      && staging.present == present0 - StagedPaths(invalid, RangeSet(k + 1))
      && UnlinkedInTurn(invalid, k + 1, present0, staging.stuck)
    ensures !ok ==> InvalidRejected(invalid, Unanswered(invalid[k].path), calls0, present0,
      staging.unlinkCalls, staging.present, staging.stuck)
  {
    var file := invalid[k];
    PathsOfNext(invalid, k);
    RangeSetNext(k);
    StagedPathsAdd(invalid, RangeSet(k), k);
    ok := true;
    if file.path != "" {
      ok := staging.Unlink(file.path);
      if !ok {
        RejectionStopsAt(invalid, k, calls0, present0, staging.unlinkCalls, staging.present, staging.stuck);
      }
    }
  }

  /** The `catch` block's cleanup: unlink every staged file of the request,
      swallowing each failure. */
  method CleanupAll(files: seq<StagedFile>, staging: StagingArea)
    modifies staging
    ensures staging.unlinkCalls == old(staging.unlinkCalls) + PathsOf(files)
    ensures staging.present == old(staging.present) - (StagedPaths(files, RangeSet(|files|)) - staging.stuck)
  {
    var k := 0;
    while k < |files|
      invariant 0 <= k <= |files|
      invariant staging.unlinkCalls == old(staging.unlinkCalls) + PathsOf(files[..k])
      invariant staging.present == old(staging.present) - (StagedPaths(files, RangeSet(k)) - staging.stuck)
    {
      ghost var present := staging.present;
      var file := files[k];
      PathsOfNext(files, k);
      RangeSetNext(k);
      StagedPathsAdd(files, RangeSet(k), k);
      if file.path != "" {
        var _ := staging.Unlink(file.path);
        RemovalStep(old(staging.present), StagedPaths(files, RangeSet(k)), staging.stuck,
          present, file.path, staging.present);
      }
      k := k + 1;
    }
    assert files[..k] == files;
  }

  /** Unlinking one more path, when it is present and not stuck, keeps the
      staging area equal to its initial content minus the removable staged
      paths handled so far. */
  lemma RemovalStep(present0: set<string>, handled: set<string>, stuck: set<string>,
    present: set<string>, path: string, present': set<string>)
    requires present == present0 - (handled - stuck)
    requires present' == if path in present && path !in stuck then present - {path} else present
    ensures present' == present0 - ((handled + {path}) - stuck)
  {
  }

  /** Every position of the chunk starting at the multiple of three `base`
      lies in the same chunk as `i`, and none before it lies in a later one. */
  lemma SameChunk(base: nat, top: nat, i: nat, done: set<nat>)
    requires base % ChunkSize == 0 && top <= base + ChunkSize && base <= i < top
    requires forall j :: j in done ==> j < top
    ensures forall j :: j in done ==> j / ChunkSize <= i / ChunkSize
  {
    assert i / ChunkSize == base / ChunkSize;
    forall j | j in done ensures j / ChunkSize <= i / ChunkSize {
      assert j < base + ChunkSize;
    }
  }

  /** At the start of a chunk, the positions below it are done and the chunk's
      own positions are pending. */
  lemma PendingStart(base: nat, top: nat)
    requires base <= top
    ensures RangeSet(base) == RangeSet(top) - (RangeSet(top) - RangeSet(base))
    ensures forall j :: j in RangeSet(top) - RangeSet(base) ==> base <= j < top
  {
  }

  /** Settling one pending position of a chunk moves it from `pending` to
      `done`. */
  lemma PendingStep(base: nat, top: nat, done: set<nat>, pending: set<nat>, i: nat)
    requires done == RangeSet(top) - pending && i in pending
    requires forall j :: j in pending ==> base <= j < top
    ensures i !in done && base <= i < top
    ensures forall j :: j in done ==> j < top
    ensures done + {i} == RangeSet(top) - (pending - {i})
  {
  }

  lemma SuffixAppend(a: seq<string>, b: seq<string>, mark: nat)
    requires mark <= |a|
    ensures (a + b)[..mark] == a[..mark]
    ensures (a + b)[mark..] == a[mark..] + b
  {
  }

  /** The `try` block of the task for the file at position `i`:
      `uploadFile`, then one record pushed to `successful` or `failed` by
      its outcome. */
  method UploadOne(files: seq<StagedFile>, env: Env, i: nat,
      successful: seq<SuccessRecord>, failed: seq<FailureRecord>, ghost order: seq<nat>)
    returns (successful': seq<SuccessRecord>, failed': seq<FailureRecord>)
    requires i < |files|
    requires successful == Successes(Records(files, env), order) && failed == Failures(Records(files, env), order)
    ensures successful' == Successes(Records(files, env), order + [i]) && failed' == Failures(Records(files, env), order + [i])
  {
    var file := files[i];
    var result := UploadFile(file, env.s3, env.uri, env.clock(i));
    assert (order + [i])[..|order|] == order;
    assert Records(files, env)[i] == RecordOf(file, result);
    successful', failed' := successful, failed;
    if result.Success? {
      successful' := successful + [SuccessOf(file, result.value)];
    } else {
      failed' := failed + [FailureOf(file, result.error)];
    }
  }

  /** The `finally` block of the task for the file at position `i`: the
      unlink of its staged copy if it has a path, a failure swallowed. */
  method ReleaseStaged(files: seq<StagedFile>, i: nat,
      staging: StagingArea, ghost present0: set<string>, ghost mark: nat, ghost done: set<nat>,
      ghost order: seq<nat>)
    requires i < |files|
    requires staging.present == present0 - (StagedPaths(files, done) - staging.stuck)
    requires mark <= |staging.unlinkCalls| && staging.unlinkCalls[mark..] == PathsIn(files, order)
    modifies staging
    ensures staging.present == present0 - (StagedPaths(files, done + {i}) - staging.stuck)
    ensures mark <= |staging.unlinkCalls| && staging.unlinkCalls[mark..] == PathsIn(files, order + [i])
    ensures staging.unlinkCalls[..mark] == old(staging.unlinkCalls[..mark])
    ensures var path := files[i].path;
      staging.present ==
        if path != "" && path in old(staging.present) && path !in staging.stuck
        then old(staging.present) - {path} else old(staging.present)
    ensures staging.unlinkCalls == old(staging.unlinkCalls) + (if files[i].path != "" then [files[i].path] else [])
  {
    var file := files[i];
    ghost var present := staging.present;
    ghost var calls := staging.unlinkCalls;
    if file.path != "" {
      var _ := staging.Unlink(file.path);
    }
    StagedPathsAdd(files, done, i);
    if file.path != "" {
      RemovalStep(present0, StagedPaths(files, done), staging.stuck, present, file.path, staging.present);
    }
    SuffixAppend(calls, if file.path != "" then [file.path] else [], mark);
    PathsInNext(files, order, i);
  }

  /** The tasks of one chunk that have not settled yet, `pending`, settle
      one by one in an order the model leaves open, as the uploads of a
      chunk run concurrently and are recorded as they complete. `order'`
      extends `order` with the positions in the order they settled. */
  method SettleRemaining(files: seq<StagedFile>, env: Env, base: nat, top: nat,
      pending: set<nat>, staging: StagingArea, ghost present0: set<string>,
      ghost mark: nat, ghost done: set<nat>,
      successful: seq<SuccessRecord>, failed: seq<FailureRecord>, ghost order: seq<nat>)
    returns (successful': seq<SuccessRecord>, failed': seq<FailureRecord>, ghost order': seq<nat>)
    requires base % ChunkSize == 0 && top <= base + ChunkSize && top <= |files|
    requires forall j :: j in pending ==> base <= j < top
    requires done == RangeSet(top) - pending
    requires Settled(order, done)
    requires successful == Successes(Records(files, env), order) && failed == Failures(Records(files, env), order)
    requires staging.present == present0 - (StagedPaths(files, done) - staging.stuck)
    requires mark <= |staging.unlinkCalls| && staging.unlinkCalls[mark..] == PathsIn(files, order)
    modifies staging
    ensures Settled(order', RangeSet(top))
    ensures successful' == Successes(Records(files, env), order') && failed' == Failures(Records(files, env), order')
    ensures staging.present == present0 - (StagedPaths(files, RangeSet(top)) - staging.stuck)
    ensures mark <= |staging.unlinkCalls| && staging.unlinkCalls[mark..] == PathsIn(files, order')
    ensures staging.unlinkCalls[..mark] == old(staging.unlinkCalls[..mark])
    decreases |pending|
  {
    if pending == {} {
      assert done == RangeSet(top);
      return successful, failed, order;
    }
    var i :| i in pending;
    assert pending == (pending - {i}) + {i};
    PendingStep(base, top, done, pending, i);
    SameChunk(base, top, i, done);
    SettleStep(order, done, i);
    successful', failed' := UploadOne(files, env, i, successful, failed, order);
    ReleaseStaged(files, i, staging, present0, mark, done, order);
    successful', failed', order' :=
      SettleRemaining(files, env, base, top, pending - {i}, staging, present0, mark, done + {i},
        successful', failed', order + [i]);
  }

  /** One turn of the chunk loop (uploadRoutes.js lines 66-98): the next
      chunk, at most three files, is spliced off the front of the working
      copy `work`; every file of the chunk is uploaded and its staged copy
      removed, and the results are appended in completion order. `top` is
      the number of leading positions handled afterwards. */
  method ProcessChunk(files: seq<StagedFile>, env: Env, work: seq<StagedFile>, base: nat,
      staging: StagingArea, ghost present0: set<string>, ghost mark: nat,
      successful: seq<SuccessRecord>, failed: seq<FailureRecord>, ghost order: seq<nat>)
    returns (work': seq<StagedFile>, top: nat,
      successful': seq<SuccessRecord>, failed': seq<FailureRecord>, ghost order': seq<nat>)
    requires base % ChunkSize == 0 && base < |files| && work == files[base..]
    requires Settled(order, RangeSet(base))
    requires successful == Successes(Records(files, env), order) && failed == Failures(Records(files, env), order)
    requires staging.present == present0 - (StagedPaths(files, RangeSet(base)) - staging.stuck)
    requires mark <= |staging.unlinkCalls| && staging.unlinkCalls[mark..] == PathsIn(files, order)
    modifies staging
    ensures top == if |work| < ChunkSize then |files| else base + ChunkSize
    ensures work' == files[top..]
    ensures base / ChunkSize < |Chunks(files)| && files[base..top] == Chunks(files)[base / ChunkSize]
    ensures Settled(order', RangeSet(top))
    ensures successful' == Successes(Records(files, env), order') && failed' == Failures(Records(files, env), order')
    ensures staging.present == present0 - (StagedPaths(files, RangeSet(top)) - staging.stuck)
    ensures mark <= |staging.unlinkCalls| && staging.unlinkCalls[mark..] == PathsIn(files, order')
    ensures staging.unlinkCalls[..mark] == old(staging.unlinkCalls[..mark])
  {
    var k := if |work| < ChunkSize then |work| else ChunkSize;
    SpliceFront(files, base, k);
    var chunk := work[..k];
    work' := work[k..];
    top := base + |chunk|;
    PendingStart(base, top);
    successful', failed', order' :=
      SettleRemaining(files, env, base, top, RangeSet(top) - RangeSet(base), staging, present0, mark,
        RangeSet(base), successful, failed, order);
    ChunkNext(files, base);
  }

  // ---------------------------------------------------------------------
  // The batch and the handler

  /** How many leading positions of an `n`-file batch are processed before
      a catastrophe that strikes just before chunk `atChunk`. */
  function Reached(n: nat, atChunk: nat): (r: nat)
    ensures r <= n
    ensures r < n ==> r == atChunk * ChunkSize
  {
    if atChunk * ChunkSize < n then atChunk * ChunkSize else n
  }

  /** Splicing `k` elements off the front of `s[a..]` leaves the chunk
      `s[a..a + k]` and the rest `s[a + k..]`. */
  lemma SpliceFront<T>(s: seq<T>, a: nat, k: nat)
    requires a + k <= |s|
    ensures s[a..][..k] == s[a..a + k] && s[a..][k..] == s[a + k..]
  {
  }

  lemma MultipleStep(d: nat)
    ensures (d * ChunkSize) % ChunkSize == 0
    ensures (d + 1) * ChunkSize == d * ChunkSize + ChunkSize
  {
  }

  /** What the batch leaves behind. Every staged copy that can be removed
      is gone, and the earlier unlink calls are untouched. Without a
      catastrophe, every position has settled, in the order `order`, the
      reply is the summary of the records that order produces, and the new
      unlink calls are the staged paths of the positions in that order.
      With one, the reply is 500 with the error's message; the new calls are
      those of the positions reached, in the order they settled, followed
      by the cleanup pass over every file. */
  ghost predicate BatchProcessed(files: seq<StagedFile>, env: Env, fault: Option<Catastrophe>,
    out: UploadOutcome, order: seq<nat>,
    calls0: seq<string>, present0: set<string>, calls: seq<string>, present: set<string>,
    stuck: set<string>)
  {
    present == present0 - (StagedPaths(files, RangeSet(|files|)) - stuck)
    && |calls0| <= |calls| && calls[..|calls0|] == calls0
    && (fault.None? ==>
          Settled(order, RangeSet(|files|))
          && out == Summarize(|files|, Successes(Records(files, env), order), Failures(Records(files, env), order))
          && calls[|calls0|..] == PathsIn(files, order))
    && (fault.Some? ==>
          out == Reply(500, ProcessFailed("Upload process failed", fault.value.message))
          && |calls0| + |PathsOf(files)| <= |calls|
          && calls[|calls| - |PathsOf(files)|..] == PathsOf(files)
          && Settled(order, RangeSet(Reached(|files|, fault.value.atChunk)))
          && calls[|calls0|..|calls| - |PathsOf(files)|] == PathsIn(files, order))
  }

  /** The `while (files.length > 0)` loop of `POST /upload`
      (uploadRoutes.js lines 66-99): `splice(0, 3)` cuts the next chunk off
      the working copy, and each chunk's uploads all settle before the next
      chunk starts. A catastrophe stops the loop just before chunk
      `atChunk`; `reached` is the number of leading positions handled. */
  method DispatchChunks(files: seq<StagedFile>, env: Env, fault: Option<Catastrophe>, staging: StagingArea)
    returns (successful: seq<SuccessRecord>, failed: seq<FailureRecord>, ghost order: seq<nat>, reached: nat,
             dispatched: nat)
    modifies staging
    ensures fault.None? ==> reached == |files| && dispatched == |Chunks(files)|
    ensures fault.Some? ==> reached == Reached(|files|, fault.value.atChunk)
    ensures Settled(order, RangeSet(reached))
    ensures successful == Successes(Records(files, env), order) && failed == Failures(Records(files, env), order)
    ensures staging.present == old(staging.present) - (StagedPaths(files, RangeSet(reached)) - staging.stuck)
    ensures |old(staging.unlinkCalls)| <= |staging.unlinkCalls|
    ensures staging.unlinkCalls[..|old(staging.unlinkCalls)|] == old(staging.unlinkCalls)
    ensures staging.unlinkCalls[|old(staging.unlinkCalls)|..] == PathsIn(files, order)
  {
    ghost var present0 := staging.present;
    ghost var calls0 := staging.unlinkCalls;
    ghost var mark := |calls0|;
    successful, failed, order := [], [], [];
    var work := files;
    dispatched := 0;
    reached := 0;
    assert StagedPaths(files, RangeSet(0)) == {};
    while work != []
      invariant reached <= |files| && work == files[reached..]
      invariant dispatched == 0 || (dispatched - 1) * ChunkSize < |files|
      invariant reached <= dispatched * ChunkSize
      invariant reached < |files| ==> reached == dispatched * ChunkSize
      invariant fault.Some? ==> dispatched <= fault.value.atChunk
      invariant Settled(order, RangeSet(reached))
      invariant successful == Successes(Records(files, env), order) && failed == Failures(Records(files, env), order)
      invariant staging.present == present0 - (StagedPaths(files, RangeSet(reached)) - staging.stuck)
      invariant mark <= |staging.unlinkCalls| && staging.unlinkCalls[..mark] == calls0
      invariant staging.unlinkCalls[mark..] == PathsIn(files, order)
      decreases |work|
    {
      if fault.Some? && fault.value.atChunk == dispatched {
        break;
      }
      MultipleStep(dispatched);
      work, reached, successful, failed, order :=
        ProcessChunk(files, env, work, reached, staging, present0, mark, successful, failed, order);
      dispatched := dispatched + 1;
    }
    if fault.None? {
      ChunksExhausted(files, dispatched);
    }
  }

  /** The cleanup pass appends its calls after those of the chunks. */
  lemma CleanupCalls(calls0: seq<string>, calls1: seq<string>, paths: seq<string>, calls2: seq<string>)
    requires |calls0| <= |calls1| && calls1[..|calls0|] == calls0
    requires calls2 == calls1 + paths
    ensures |calls0| + |paths| <= |calls2| && calls2[..|calls0|] == calls0
    ensures calls2[|calls2| - |paths|..] == paths
    ensures calls2[|calls0|..|calls2| - |paths|] == calls1[|calls0|..]
  {
    assert calls2[..|calls1|] == calls1;
  }

  /** Removing the staged copies of a part of the batch and then those of
      all of it removes those of all of it. */
  lemma CleanupPresent(present0: set<string>, present1: set<string>, present2: set<string>,
      part: set<string>, all: set<string>, stuck: set<string>)
    requires part <= all
    requires present1 == present0 - (part - stuck)
    requires present2 == present1 - (all - stuck)
    ensures present2 == present0 - (all - stuck)
  {
  }

  /** The `try` block of `POST /upload` (uploadRoutes.js lines 64-130): the
      chunk loop, then the summary response; a catastrophe instead sends 500
      after the `catch` block's pass unlinking every staged file. */
  method RunBatch(files: seq<StagedFile>, env: Env, fault: Option<Catastrophe>, staging: StagingArea)
    returns (out: UploadOutcome, ghost order: seq<nat>)
    modifies staging
    ensures BatchProcessed(files, env, fault, out, order,
      old(staging.unlinkCalls), old(staging.present), staging.unlinkCalls, staging.present, staging.stuck)
  {
    ghost var calls0 := staging.unlinkCalls;
    var successful, failed, reached;
    var dispatched;
    successful, failed, order, reached, dispatched := DispatchChunks(files, env, fault, staging);
    if fault.Some? {
      ghost var calls1 := staging.unlinkCalls;
      ghost var present1 := staging.present;
      StagedPathsMono(files, RangeSet(reached), RangeSet(|files|));
      CleanupAll(files, staging);
      CleanupCalls(calls0, calls1, PathsOf(files), staging.unlinkCalls);
      CleanupPresent(old(staging.present), present1, staging.present,
        StagedPaths(files, RangeSet(reached)), StagedPaths(files, RangeSet(|files|)), staging.stuck);
      out := Reply(500, ProcessFailed("Upload process failed", fault.value.message));
    } else {
      out := Summarize(|files|, successful, failed);
    }
  }

  /** The summary of a fully settled batch: every file is counted once,
      as a success or a failure, and the status is 200 exactly when every
      upload succeeded (207 otherwise). */
  lemma BatchSummary(files: seq<StagedFile>, env: Env, order: seq<nat>)
    requires Settled(order, RangeSet(|files|))
    ensures var out := Summarize(|files|, Successes(Records(files, env), order), Failures(Records(files, env), order));
      out.body.successCount + out.body.failureCount == out.body.totalProcessed == |files|
      && (out.status == 200 <==> forall i :: 0 <= i < |files| ==> Attempt(files, env, i).Success?)
      && (out.status == 207 <==> exists i :: 0 <= i < |files| && Attempt(files, env, i).Failure?)
  {
    LedgerComplete(Records(files, env), order);
    RecordsOutcome(files, env);
  }

  /** The unlink calls a processed batch made, up to their order: without
      a catastrophe, one per file with a staged path, as a `forEach` over
      the batch would make them; with one, the same for the positions
      reached, before the cleanup pass. */
  lemma BatchUnlinks(files: seq<StagedFile>, env: Env, fault: Option<Catastrophe>,
      out: UploadOutcome, order: seq<nat>,
      calls0: seq<string>, present0: set<string>, calls: seq<string>, present: set<string>,
      stuck: set<string>)
    requires BatchProcessed(files, env, fault, out, order, calls0, present0, calls, present, stuck)
    ensures fault.None? ==> multiset(calls[|calls0|..]) == multiset(PathsOf(files))
    ensures fault.Some? ==>
      multiset(calls[|calls0|..|calls| - |PathsOf(files)|])
        == multiset(PathsOf(files[..Reached(|files|, fault.value.atChunk)]))
  {
    if fault.None? {
      SettledUnlinks(files, order, |files|);
      assert files[..|files|] == files;
    } else {
      SettledUnlinks(files, order, Reached(|files|, fault.value.atChunk));
    }
  }

  /** `POST /upload` once multer has staged the request's files: `files`
      is `req.files` (absent when no multipart field was sent). An absent or
      empty list is answered 400 without touching the staging area; a batch
      with a non-image file is rejected after its invalid files are
      unlinked; otherwise the batch is processed. `order` lists the
      positions whose `uploadFile` task ran, in the order they settled: it
      is empty in both 400 branches, which send nothing to the store. */
  method HandleUpload(files: Option<seq<StagedFile>>, env: Env, fault: Option<Catastrophe>,
      staging: StagingArea)
    returns (out: UploadOutcome, ghost order: seq<nat>)
    modifies staging
    ensures files.None? || files.value == [] ==>
      out == Reply(400, Notice("No files uploaded")) && order == []
      && staging.present == old(staging.present) && staging.unlinkCalls == old(staging.unlinkCalls)
    ensures files.Some? && files.value != [] && InvalidFiles(files.value) != [] ==>
      order == [] && InvalidRejected(InvalidFiles(files.value), out,
        old(staging.unlinkCalls), old(staging.present), staging.unlinkCalls, staging.present, staging.stuck)
    ensures files.Some? && files.value != [] && InvalidFiles(files.value) == [] ==>
      BatchProcessed(files.value, env, fault, out, order,
        old(staging.unlinkCalls), old(staging.present), staging.unlinkCalls, staging.present, staging.stuck)
  {
    order := [];
    if files.None? || |files.value| == 0 {
      return Reply(400, Notice("No files uploaded")), [];
    }
    var invalid := InvalidFiles(files.value);
    if |invalid| > 0 {
      out := RejectInvalid(invalid, staging);
      return;
    }
    out, order := RunBatch(files.value, env, fault, staging);
  }
}

=== FILE: wrappers.dfy ===
/** Option and Result, the two failure-carrying shapes the model uses for
    JavaScript's `undefined` values and thrown errors. */
module Wrappers {

  datatype Option<+T> = None | Some(value: T)

  datatype Result<+R, +E> = Success(value: R) | Failure(error: E)

  /** A thrown JavaScript `Error`: its `name` and its `message`. */
  datatype JsError = JsError(name: string, message: string)
}
